=== FILE: README.md ===
# Voice assistant turn logic, in Dafny

A model of the deterministic core of a Korean voice assistant that comes in two
editions: a console loop (`main.py`) and a GUI loop behind a Tkinter window
(`main_beta.py`). Each pass of either loop captures one utterance and routes its
transcript. A local command ("날씨", "시간", "날짜", and in the GUI edition also
"뉴스" and "계산") is answered first. Failing that, a transcript containing "종료"
ends the loop. Anything else goes to the remote generator. The generator's stripped
answer is appended to the conversation history, written to the transcript file
(and, in the GUI edition, to the SQLite table), logged, and spoken. The GUI edition
also keeps a `speaking_event` flag: it listens only while the flag is clear, and the
flag is set around each playback.

Modules, one concern each:

- `Wrappers`: `Option`, with `GetOr` for Python's `dict.get(key, default)`.
- `Text`: the substring test `needle in haystack` and `str.strip()` with Python's
  whitespace set.
- `Clock`: a clock reading, and `strftime("%H:%M:%S")` / `strftime("%Y-%m-%d")` with
  parsers that read them back.
- `Commands`: `handle_command` of both editions, plus a reference definition as an
  ordered (keyword, handler) table scanned first-match-wins.
- `Prompt`: history entries, the rendered history and prompt, and the transcript-file
  block.
- `Turns`: capture and generation outcomes, the routing of one pass (`Classify`), and
  what a pass or a run appends to the history, the log, the prompts and the speech.
- `VoiceMain`: class `Assistant`, the console edition's globals and functions, with
  its loop over a finite sequence of capture outcomes.
- `GuiEvents`: the GUI edition's observable events (listen, window line, flag set,
  playback, flag cleared, sleep), the flag protocol, and the GUI loop as a function
  of the passes.
- `VoiceBeta`: class `BetaAssistant`, the GUI edition's globals and functions.

The recognizer, the generator, the playback and the clock are inputs. Each pass
gets one `TurnInput`: the recognition outcome, the generator's outcome should it be
asked, and the clock reading. A GUI pass also gets whether its playback returned or
raised. The files, the table, app.log, the window and the speech engine are
append-only ghost sequences on the classes.

Behaviour of the code worth knowing:

- `generate_ai_response` appends nothing to the history, the file or the table when
  the generator call fails. It logs one error line and returns the fallback, which is
  then spoken (`main.py:111-114`, `Turns.EntriesFromSuccesses`).
- A generated text that is empty after stripping is recorded, logged and spoken as it
  is (`main.py:102-110`).
- "지금 몇 시야" holds no "시간", so it goes to the generator, not to the time command
  (`Turns.WhatTimeScenario`).
- A capture result with no `'alternative'` key or no `'transcript'` key gives the empty
  transcript. That transcript goes to the generator, and its answer is recorded with an
  empty user text (`Turns.EmptyTranscriptAsks`).
- A recognition error is never spoken. `main.py` only prints it. `main_beta.py`
  displays the "인식하지 못했습니다" notice for an unrecognised utterance. For a
  service error (`sr.RequestError`) it queues a display that reads the exception
  variable `e`. Python unbinds `e` when the `except` clause ends. The worker thread
  and the GUI thread race here: if the worker leaves the clause before the callback
  runs, which is the likely order, the callback raises NameError and nothing is
  displayed. The model takes that outcome (`main_beta.py:181-183`).
- A command turn writes two info lines to app.log. A quit turn writes none.
- In `main_beta.py`, `my_tts` has no `finally`. A playback that raises leaves the
  flag set, and from then on the loop only sleeps (`GuiEvents.StuckFlagIsDeaf`).

## Model

| member | source | states |
|---|---|---|
| Text.Contains | main.py:46-51 | Python's `needle in haystack`: an occurring needle is no longer than the haystack, and the empty needle occurs in every text |
| Text.ContainsIffOccurs | main.py:46-51 | the recursive substring scan holds exactly when the needle starts at some position of the haystack |
| Text.CharOfOccurrence | main.py:46-51 | every character of an occurring needle is a character of the haystack |
| Text.AbsentChar | main.py:46-51 | a needle with a character the haystack lacks does not occur in it |
| Text.IsSpace | main.py:102 | the characters `str.strip()` removes: space, tab, newline and carriage return are among them; digits, Latin letters and Hangul syllables are not |
| Text.StripLeading | main.py:102 | removes exactly the longest whitespace prefix: the result is a suffix, everything cut is whitespace, and the result starts with a non-space |
| Text.StripTrailing | main.py:102 | removes exactly the longest whitespace suffix, symmetrically |
| Text.Strip | main.py:102 | the result is no longer than the input and has no whitespace at either end |
| Text.StripCutsOnlySpace | main.py:102 | the stripped text is a slice of the input, and everything before and after that slice is whitespace |
| Text.StripKeepsClean | main.py:102 | a text without whitespace at its ends is left unchanged |
| Text.StripIdempotent | main.py:102 | stripping twice is stripping once |
| Clock.DigitChar | main.py:49 | a digit character whose code differs from '0' by the digit |
| Clock.TwoDigits | main.py:49 | a two-character field that reads back to the number |
| Clock.FourDigits | main.py:52 | a four-character field that reads back to the number |
| Clock.FormatTime | main.py:49 | eight characters with colons at positions 2 and 5 |
| Clock.FormatDate | main.py:52 | ten characters with dashes at positions 4 and 7 |
| Clock.TimeRoundTrip | main.py:49 | the formatted time parses back to the hour, minute and second |
| Clock.DateRoundTrip | main.py:52 | the formatted date parses back to the year, month and day |
| Commands.TimeReply | main.py:48-50 | the time reply: 19 characters, with the `%H:%M:%S` reading at characters 7 to 15 |
| Commands.DateReply | main.py:51-53 | the date reply: 18 characters, with the `%Y-%m-%d` reading at characters 4 to 14 |
| Commands.HandleCommand | main.py:45-55 | a reply, when there is one, is non-empty, so the caller's truthiness test accepts it |
| Commands.HandleCommandBeta | main_beta.py:82-96 | the same for the five-keyword router |
| Commands.FirstMatchPicksEarliest | main.py:45-55 | in a first-match table, the earliest row whose keyword occurs answers, whatever later rows match |
| Commands.FirstMatchNone | main.py:45-55 | a first-match table gives no reply exactly when no keyword of it occurs |
| Commands.HandleCommandIsFirstMatch | main.py:45-55 | the console if/elif chain equals the scan of the table weather, time, date |
| Commands.HandleCommandBetaIsFirstMatch | main_beta.py:82-96 | the GUI chain equals the scan of the table weather, time, date, news, calculation |
| Commands.HandleCommandPriority | main.py:46-53 | priority 날씨 > 시간 > 날짜: the earliest keyword in table order that occurs decides the reply |
| Commands.HandleCommandBetaPriority | main_beta.py:83-94 | priority 날씨 > 시간 > 날짜 > 뉴스 > 계산 |
| Commands.HandleCommandNoneIff | main.py:45-55 | None exactly when none of the three keywords occurs, in both directions |
| Commands.HandleCommandBetaNoneIff | main_beta.py:82-96 | None exactly when none of the five keywords occurs, in both directions |
| Commands.BetaExtendsMain | main_beta.py:82-96 | where the console router answers, the GUI router gives the same answer; otherwise it answers news, calculation or nothing |
| Commands.TimeReplyReadsClock | main.py:48-50 | the time reply is 19 characters, has the fixed frame, and characters 7 to 15 parse back to the clock reading |
| Commands.DateReplyReadsClock | main.py:51-53 | the date reply is 18 characters, has the fixed frame, and characters 4 to 14 parse back to the calendar day |
| Commands.WeatherScenario | main.py:46-47 | "오늘 날씨 어때" gets the fixed weather reply in both editions |
| Commands.TimeBeatsEarlierDate | main.py:46-53 | "날짜랑 시간" gets the time reply: priority follows keyword order, not position in the text |
| Prompt.RenderEntry | main.py:94 | one entry's block: the user text after "User: " and the AI text at the end, with nothing else in between but the fixed labels |
| Prompt.RenderEntries | main.py:94 | one rendered "User/AI" block per entry, in order |
| Prompt.RenderHistory | main.py:94 | the `history` string: empty exactly when the history is, and otherwise beginning with the oldest entry's block |
| Prompt.RenderPrompt | main.py:95 | the `concise_prompt`: it begins with the whole rendered history and ends with the fixed instruction |
| Prompt.PromptAsksUser | main.py:95 | in the prompt, the user text follows the rendered history right after the "\nUser: " label |
| Prompt.TranscriptBlock | main.py:61 | the block written to conversation_history.txt is the entry rendered as in the prompt, followed by a blank line |
| Prompt.JoinSnoc | main.py:94 | joining one more part appends the separator and that part |
| Prompt.RenderEntriesSnoc | main.py:94 | rendering one more entry appends its block |
| Prompt.RenderHistoryAppend | main.py:94 | recording an entry extends the rendered history by a newline and that entry's block |
| Prompt.RenderHistoryGrows | main.py:94 | the history rendered before an append is a prefix of the one after, shorter by at least the new block |
| Prompt.RenderHistoryPrefix | main.py:94 | no truncation: the rendered history is a prefix of that of every extension |
| Prompt.PromptKeepsHistory | main.py:94-95 | a prompt built after more entries still begins with the whole earlier history |
| Prompt.PromptGrows | main.py:94-95 | each recorded entry lengthens every later prompt by at least its block |
| Prompt.PromptShowsEntry | main.py:94-95 | every recorded entry appears in the prompt, right after the entries before it |
| Turns.Transcript | main.py:120 | the routed transcript: empty when there is no `'alternative'` key; otherwise the first alternative's `'transcript'` value when it has a non-empty one, and empty when it has none or an empty one |
| Turns.RouteOf | main.py:124-140 | a command reply exactly when the edition's `handle_command` answers, and that reply is non-empty; a quit only when "종료" occurs |
| Turns.Classify | main.py:118-140 | the routing of one iteration; it has no contract of its own, and `Turns.ClassifyCases` states its cases in both directions |
| Turns.Answer | main.py:102-114 | what `generate_ai_response` returns: on a failure, the non-empty fallback |
| Turns.AnswerIsStripped | main.py:102-114 | what `generate_ai_response` returns has no whitespace left to strip, on success and on failure |
| Turns.Recorded | main.py:105 | at most one entry, exactly when the generator returned a text, pairing the user text with the returned answer |
| Turns.GenerationLogs | main.py:108-112 | on success, the info lines of the exchange with the answer returned; on failure, exactly one error line |
| Turns.ClassifyCases | main.py:118-140 | an unheard capture is not routed; a routed pass uses the first alternative's transcript; a command reply is given exactly when a command keyword occurs; otherwise "종료" quits and the rest asks the generator with the given outcome |
| Turns.Classified | main.py:116-140 | the turns of a run, one per input, each the classification of its input |
| Turns.HistorySnoc | main.py:116-140 | one more turn appends that turn's history entries |
| Turns.LogsSnoc | main.py:116-140 | one more turn appends that turn's log lines |
| Turns.SpeechSnoc | main.py:116-140 | one more turn appends that turn's speech |
| Turns.PromptsSnoc | main.py:116-140 | one more turn appends its prompt, rendered from the history that the earlier turns left |
| Turns.AfterSnoc | main.py:116-140 | a run's trace is its turns applied one after another |
| Turns.ClassifiedSnoc | main.py:117-118 | classifying one more input adds its turn at the end |
| Turns.CommandNoneIff | main.py:124-125 | each edition's router gives no reply exactly when none of that edition's keywords occurs |
| Turns.RouteCases | main.py:124-140 | command exactly when a keyword occurs; quit exactly when none occurs and "종료" does; the generator exactly when neither occurs |
| Turns.TimeBeforeQuit | main.py:124-134 | "시간 종료" gets the time reply and does not quit, in both editions |
| Turns.QuitScenario | main.py:131-134 | "종료" quits in both editions |
| Turns.WhatTimeScenario | main.py:45-55 | "지금 몇 시야" holds no keyword and goes to the generator |
| Turns.EmptyTranscriptAsks | main.py:120 | a missing 'alternative' or 'transcript' key gives the empty transcript, which goes to the generator |
| Turns.EntriesAtMostOnePerTurn | main.py:116-140 | a run appends at most one history entry per pass |
| Turns.EntriesOfQuestions | main.py:102-105 | if every turn that asked the generator had a transcript with no command keyword and no "종료", so does every entry, and every entry's text is already stripped |
| Turns.EntryOrigin | main.py:102-105 | every entry is the transcript and stripped text of some turn of the run whose generation succeeded |
| Turns.SuccessRecorded | main.py:102-105 | every turn whose generation succeeded leaves its entry in the history |
| Turns.EntriesFromSuccesses | main.py:102-114 | the history grows by exactly one entry per successful generation: the number of entries is the number of successes, every entry comes from a success, and every success has its entry; failed generations, commands, quits and unheard passes add none |
| Turns.EntriesAreAnswers | main.py:118-140 | every entry of a run comes from a pass whose capture was heard and whose generator call returned a text: it pairs that pass's transcript with the stripped text, and the transcript holds no command keyword and no "종료" |
| Turns.ErrorCountAppend | main.py:112 | error lines of concatenated logs add up |
| Turns.TurnErrors | main.py:111-114 | a pass writes an error line exactly when its generation failed, and then exactly one |
| Turns.OneErrorPerFailure | main.py:111-114 | app.log holds exactly as many error lines as the run had failed generations |
| Turns.PromptsKeepHistory | main.py:94-95 | every prompt of a run begins with the whole history the run started from |
| VoiceMain.Assistant.constructor | main.py:43 | the history and every sink start empty |
| VoiceMain.Assistant.UpdateConversationHistory | main.py:57-61 | exactly one entry at the tail of the list and one block at the end of the file; the file keeps mirroring the list |
| VoiceMain.Assistant.LogInteraction | main.py:63-65 | exactly the two info lines "User: …" and "AI: …" |
| VoiceMain.Assistant.MyTts | main.py:25-32 | exactly the text is handed to the speech engine |
| VoiceMain.Assistant.ConcisePrompt | main.py:94-95 | the prompt built from the current history begins with that whole history |
| VoiceMain.Assistant.GenerateAiResponse | main.py:83-114 | sends the prompt built from the history before the call; on success records, logs and returns the stripped text; on failure logs one error line, returns the fallback and leaves the history alone |
| VoiceMain.Assistant.Step | main.py:118-140 | one pass changes the history, log, prompts and speech exactly as its classified turn says, and quits exactly on a quit turn |
| VoiceMain.Assistant.Run | main.py:116-140 | the loop stops right after the first quit turn or when the inputs run out; when it reports a quit, the last turn taken quit and no earlier one did; and its history, log, prompts and speech are those of the turns taken |
| GuiEvents.FlagConcat | main_beta.py:58 | the flag after two stretches of events is the second stretch applied to the flag the first left |
| GuiEvents.QuietConcat | main_beta.py:148 | two stretches listen only while the flag is clear exactly when each does, from the flag it starts with |
| GuiEvents.QuietAtEveryListen | main_beta.py:147-151 | at every capture, the flag as left by the events before it is clear, in both directions |
| GuiEvents.SpeechEvents | main_beta.py:61-69 | `my_tts`: the flag is set, then the text played; the flag-clearing event follows exactly when the playback returned |
| GuiEvents.SpeechEventsFlag | main_beta.py:61-69 | a playback leaves the flag set exactly when it raised, and never captures |
| GuiEvents.Reaction | main_beta.py:155-183 | what a heeded iteration shows and plays after listening; it has no contract of its own, and `GuiEvents.TurnEventsFlag` and `GuiEvents.TurnEventsListenOnce` state what it does to the flag and the captures |
| GuiEvents.TurnEvents | main_beta.py:148-183 | a heeded iteration: listen, then react; no contract of its own, see the two lemmas below |
| GuiEvents.TurnEventsListenOnce | main_beta.py:148-183 | a heeded iteration captures exactly once, at its start, and never sleeps |
| GuiEvents.TurnEventsFlag | main_beta.py:148-183 | a heeded pass captures only at its start, with the flag clear, and leaves the flag set exactly when it spoke and the playback raised |
| GuiEvents.TickState | main_beta.py:147-186 | one pass of the loop only appends events; while the flag is set it records nothing and the flag stays set |
| GuiEvents.RunStateSnoc | main_beta.py:147 | one more pass is one more step of the loop |
| GuiEvents.HaltedSnoc | main_beta.py:168-172 | the run has halted after one more pass exactly when it had halted already or that pass quit |
| GuiEvents.TickSpeaking | main_beta.py:184-186 | a set flag stays set; a clear one is set by a pass only when it spoke and the playback raised |
| GuiEvents.TickKeepsConsistent | main_beta.py:147-186 | every pass keeps the flag equal to what the events left it at, and captures only while it is clear |
| GuiEvents.RunKeepsConsistent | main_beta.py:145-186 | a whole run captures only while the flag is clear |
| GuiEvents.RunTraceIsCaptured | main_beta.py:145-186 | a GUI run's history, log, prompts and speech are those of the passes that found the flag clear, so every run property of the turns holds for it |
| GuiEvents.StuckFlagIsDeaf | main_beta.py:184-186 | once the flag is set, every later pass only sleeps: nothing is captured, recorded, logged or spoken, and the flag stays set |
| GuiEvents.RaisedPlaybackDeafens | main_beta.py:61-69 | a pass whose playback raises is the last one ever captured, whatever the later passes hold |
| GuiEvents.FinishedPlaybackFreesFlag | main_beta.py:61-69 | while every playback returns normally, the flag is clear after every pass |
| GuiEvents.Inputs | main_beta.py:147 | the outcomes of the passes, one per pass, in order |
| GuiEvents.FinishedPlaybackHearsAll | main_beta.py:145-186 | while every playback returns normally, no pass is skipped: the run takes the GUI turn of every pass's outcome, in order |
| VoiceBeta.BetaAssistant.constructor | main_beta.py:58 | the flag starts clear, and the history and every sink start empty |
| VoiceBeta.BetaAssistant.UpdateConversationHistory | main_beta.py:98-105 | exactly one entry in the list, one row in the table and one block in the file; table and file keep mirroring the list |
| VoiceBeta.BetaAssistant.LogInteraction | main_beta.py:107-109 | exactly the two info lines |
| VoiceBeta.BetaAssistant.DisplayMessage | main_beta.py:49-51 | exactly one window line |
| VoiceBeta.BetaAssistant.MyTts | main_beta.py:61-69 | flag set, text played, flag cleared only when the playback returned; the flag ends set exactly when it raised |
| VoiceBeta.BetaAssistant.DisplayAndTts | main_beta.py:53-55 | the line "AI: text" in the window, then the playback |
| VoiceBeta.BetaAssistant.ConcisePrompt | main_beta.py:122-123 | the prompt built from the current history begins with that whole history |
| VoiceBeta.BetaAssistant.GenerateAiResponse | main_beta.py:111-143 | as in the console edition, with the table row on success |
| VoiceBeta.BetaAssistant.ReplyToCommand | main_beta.py:158-166 | the command branch: echo, reply shown and spoken, exchange logged |
| VoiceBeta.BetaAssistant.SayFarewell | main_beta.py:168-172 | the quit branch: echo, farewell spoken |
| VoiceBeta.BetaAssistant.AskGenerator | main_beta.py:173-177 | the generator branch: echo, generator asked, answer shown and spoken |
| VoiceBeta.BetaAssistant.Respond | main_beta.py:154-177 | a truthy capture is routed as its classified turn says, and every route speaks |
| VoiceBeta.BetaAssistant.TakeTurn | main_beta.py:148-183 | a pass with the flag clear captures first, then reacts as its classified turn says; an unrecognised utterance only shows its notice, and a service error shows nothing |
| VoiceBeta.BetaAssistant.Iterate | main_beta.py:147-186 | one pass is the step `TickState` of the loop, and it keeps the flag and capture invariant |
| VoiceBeta.BetaAssistant.Run | main_beta.py:145-186 | the loop stops right after the first quitting pass or when the passes run out, and its whole state is the run of those passes |

## Left out

- Audio capture, speech recognition and speech synthesis are left out. They are opaque services. Their outcomes are inputs: `Recognition` in both editions, and `Playback` in the GUI edition.
- VoiceMain.Assistant.MyTts: the console playback always returns. In `main.py`, `my_tts` has no `try`, so a raising `runAndWait` would end `main()`. On a command turn the log lines written after the playback would then be missing. That exit is not modelled.
- The Gemini model, its configuration (model name, 100 output tokens, temperature 0.3) and the API key check at start-up are left out. The generator's outcome is an input (`Generation`); a missing key ends the program before any pass.
- `dotenv`, the `logging` set-up, log timestamps and levels are left out. Log lines are `Info`/`Error` values with their message.
- Console `print` output is not modelled. It is not read back by anything.
- The wall clock is an input of each pass (`Instant`).
- `Clock.FourDigits`: years are zero-padded to four digits. A platform `strftime` may print years before 1000 without padding; a real clock reading never has such a year.
- `asyncio` in the console edition is not modelled. The awaited calls are sequential and at most one generation is in flight, so the model runs them in order.
- The GUI edition's worker thread, Tkinter main loop and `root.after(0, ...)` scheduling are not modelled. Queued callbacks run at the point they are queued. So the race between the worker's next flag test and a queued playback that has not yet set the flag is not modelled, and neither is `root.quit()`. The queued lambdas read `transcript`, `command_response` and `ai_response` when they run, not when they are queued; the model shows the values of the pass that queued them. For the service-error display the model takes the likely outcome of the race instead: the worker has left the `except` clause and unbound `e` before the callback runs, so the display fails and shows nothing. The other order, where the notice is shown, is not modelled.
- `time.sleep(0.1)` is a `Wait` event with no duration.
- The speech engine's rate change around each playback is not modelled.
- Failures of the file, database or log writes are not modelled, and neither are partial writes. Each write appends exactly its record.
- The database's id and timestamp columns and the closing handler are not modelled.
- An empty `'alternative'` list would raise IndexError in the source. It is excluded by `WellFormed`, a precondition of every pass.
- The start button of the GUI is not modelled. A run starts with the first pass.


=== FILE: clock.dfy ===
/** The wall-clock reading the time and date commands format with
    `strftime("%H:%M:%S")` and `strftime("%Y-%m-%d")`. The clock itself is
    not modelled: the reading is an input of every turn. */
module Clock {
  import opened Wrappers

  /** One reading of `datetime.now()`, down to the second. */
  datatype Instant = Instant(year: int, month: int, day: int, hour: int, minute: int, second: int)

  /** The ranges a Python `datetime` keeps its fields in. */
  predicate IsValid(t: Instant)
  {
    1 <= t.year <= 9999 && 1 <= t.month <= 12 && 1 <= t.day <= 31
    && 0 <= t.hour < 24 && 0 <= t.minute < 60 && 0 <= t.second < 60
  }

  function DigitChar(d: int): (c: char)
    requires 0 <= d <= 9
    ensures '0' <= c <= '9' && c as int - '0' as int == d
  {
    ('0' as int + d) as char
  }

  /** The value of a run of decimal digits, or None when a non-digit occurs. */
  function ReadDecimal(s: string): Option<int>
  {
    if s == [] then Some(0)
    else if '0' <= s[|s| - 1] <= '9' then
      match ReadDecimal(s[..|s| - 1])
      case Some(v) => Some(10 * v + (s[|s| - 1] as int - '0' as int))
      case None => None
    else None
  }

  /** A zero-padded two-digit field, as `%H`, `%M`, `%S`, `%m` and `%d` print it. */
  function TwoDigits(n: int): (s: string)
    requires 0 <= n < 100
    ensures |s| == 2 && ReadDecimal(s) == Some(n)
  {
    var s := [DigitChar(n / 10), DigitChar(n % 10)];
    assert s[..1] == [DigitChar(n / 10)];
    assert s[..1][..0] == [];
    assert ReadDecimal(s[..1]) == Some(n / 10);
    assert 10 * (n / 10) + n % 10 == n;
    s
  }

  /** A zero-padded four-digit year, as `%Y` prints it. */
  function FourDigits(n: int): (s: string)
    requires 0 <= n < 10000
    ensures |s| == 4 && ReadDecimal(s) == Some(n)
  {
    var hi, lo := TwoDigits(n / 100), TwoDigits(n % 100);
    var s := hi + lo;
    assert s[..3] == hi + lo[..1];
    assert s[..2] == hi;
    assert lo[..1][..0] == [];
    s
  }

  /** `now.strftime("%H:%M:%S")`. */
  function FormatTime(t: Instant): (s: string)
    requires IsValid(t)
    ensures |s| == 8 && s[2] == ':' && s[5] == ':'
  {
    TwoDigits(t.hour) + ":" + TwoDigits(t.minute) + ":" + TwoDigits(t.second)
  }

  /** `now.strftime("%Y-%m-%d")`. */
  function FormatDate(t: Instant): (s: string)
    requires IsValid(t)
    ensures |s| == 10 && s[4] == '-' && s[7] == '-'
  {
    FourDigits(t.year) + "-" + TwoDigits(t.month) + "-" + TwoDigits(t.day)
  }

  /** Reads an `HH:MM:SS` string back into (hour, minute, second). */
  function ParseTime(s: string): Option<(int, int, int)>
  {
    if |s| == 8 && s[2] == ':' && s[5] == ':' then
      match (ReadDecimal(s[0..2]), ReadDecimal(s[3..5]), ReadDecimal(s[6..8]))
      case (Some(h), Some(m), Some(sec)) => Some((h, m, sec))
      case _ => None
    else None
  }

  /** Reads a `YYYY-MM-DD` string back into (year, month, day). */
  function ParseDate(s: string): Option<(int, int, int)>
  {
    if |s| == 10 && s[4] == '-' && s[7] == '-' then
      match (ReadDecimal(s[0..4]), ReadDecimal(s[5..7]), ReadDecimal(s[8..10]))
      case (Some(y), Some(m), Some(d)) => Some((y, m, d))
      case _ => None
    else None
  }

  /** The formatted time carries the whole reading: it parses back to the same fields. */
  lemma TimeRoundTrip(t: Instant)
    requires IsValid(t)
    ensures ParseTime(FormatTime(t)) == Some((t.hour, t.minute, t.second))
  {
    var s := FormatTime(t);
    assert s[0..2] == TwoDigits(t.hour);
    assert s[3..5] == TwoDigits(t.minute);
    assert s[6..8] == TwoDigits(t.second);
  }

  /** The formatted date carries the whole calendar day: it parses back to the same fields. */
  lemma DateRoundTrip(t: Instant)
    requires IsValid(t)
    ensures ParseDate(FormatDate(t)) == Some((t.year, t.month, t.day))
  {
    var s := FormatDate(t);
    assert s[0..4] == FourDigits(t.year);
    assert s[5..7] == TwoDigits(t.month);
    assert s[8..10] == TwoDigits(t.day);
  }
}

=== FILE: commands.dfy ===
/** The local command router `handle_command` of both entry points: an ordered
    chain of substring tests on the transcript, first match wins, `None` when
    no keyword occurs. The clock reading is a parameter. */
module Commands {
  import opened Wrappers
  import opened Text
  import opened Clock

  const WeatherKeyword := "날씨"
  const TimeKeyword := "시간"
  const DateKeyword := "날짜"
  const NewsKeyword := "뉴스"
  const CalcKeyword := "계산"

  const WeatherReply := "현재 날씨 정보는 제공되지 않습니다. 다른 질문을 해주세요."
  const NewsReply := "현재 뉴스 정보를 제공하지 않습니다. 다른 질문을 해주세요."
  const CalcReply := "간단한 계산을 도와드릴 수 있습니다. 계산할 내용을 말씀해 주세요."

  /** `f"현재 시간은 {current_time}입니다."` */
  function TimeReply(now: Instant): (r: string)
    requires IsValid(now)
    ensures |r| == 19 && r[7..15] == FormatTime(now)
  {
    "현재 시간은 " + FormatTime(now) + "입니다."
  }

  /** `f"오늘은 {current_date}입니다."` */
  function DateReply(now: Instant): (r: string)
    requires IsValid(now)
    ensures |r| == 18 && r[4..14] == FormatDate(now)
  {
    "오늘은 " + FormatDate(now) + "입니다."
  }

  /** `handle_command` of main.py: weather, then time, then date. */
  function HandleCommand(transcript: string, now: Instant): (r: Option<string>)
    requires IsValid(now)
    ensures r.Some? ==> r.value != []
  {
    if Contains(transcript, WeatherKeyword) then Some(WeatherReply)
    else if Contains(transcript, TimeKeyword) then Some(TimeReply(now))
    else if Contains(transcript, DateKeyword) then Some(DateReply(now))
    else None
  }

  /** `handle_command` of main_beta.py: the same three, then news, then calculation. */
  function HandleCommandBeta(transcript: string, now: Instant): (r: Option<string>)
    requires IsValid(now)
    ensures r.Some? ==> r.value != []
  {
    if Contains(transcript, WeatherKeyword) then Some(WeatherReply)
    else if Contains(transcript, TimeKeyword) then Some(TimeReply(now))
    else if Contains(transcript, DateKeyword) then Some(DateReply(now))
    else if Contains(transcript, NewsKeyword) then Some(NewsReply)
    else if Contains(transcript, CalcKeyword) then Some(CalcReply)
    else None
  }

  // ---------------------------------------------------------------------------
  // Reference definition: the router as an ordered table of (keyword, handler)
  // pairs scanned first-match-wins.

  datatype Handler = Fixed(text: string) | CurrentTime | CurrentDate

  function Apply(h: Handler, now: Instant): string
    requires IsValid(now)
  {
    match h
    case Fixed(text) => text
    case CurrentTime => TimeReply(now)
    case CurrentDate => DateReply(now)
  }

  const MainTable: seq<(string, Handler)> :=
    [(WeatherKeyword, Fixed(WeatherReply)), (TimeKeyword, CurrentTime), (DateKeyword, CurrentDate)]

  const BetaTable: seq<(string, Handler)> :=
    MainTable + [(NewsKeyword, Fixed(NewsReply)), (CalcKeyword, Fixed(CalcReply))]

  /** The handler of the first row whose keyword occurs in the transcript. */
  function FirstMatch(table: seq<(string, Handler)>, transcript: string, now: Instant): Option<string>
    requires IsValid(now)
  {
    if table == [] then None
    else if Contains(transcript, table[0].0) then Some(Apply(table[0].1, now))
    else FirstMatch(table[1..], transcript, now)
  }

  /** First match wins: when row `k` is the earliest row whose keyword occurs,
      its handler answers, whatever later keywords the transcript holds. */
  lemma {:induction false} FirstMatchPicksEarliest(table: seq<(string, Handler)>, transcript: string, now: Instant, k: int)
    requires IsValid(now)
    requires 0 <= k < |table| && Contains(transcript, table[k].0)
    requires forall j | 0 <= j < k :: !Contains(transcript, table[j].0)
    ensures FirstMatch(table, transcript, now) == Some(Apply(table[k].1, now))
  {
    if k > 0 {
      assert !Contains(transcript, table[0].0);
      FirstMatchPicksEarliest(table[1..], transcript, now, k - 1);
    }
  }

  /** No reply exactly when no keyword of the table occurs. */
  lemma {:induction false} FirstMatchNone(table: seq<(string, Handler)>, transcript: string, now: Instant)
    requires IsValid(now)
    ensures FirstMatch(table, transcript, now).None?
      <==> forall k | 0 <= k < |table| :: !Contains(transcript, table[k].0)
  {
    if table != [] {
      FirstMatchNone(table[1..], transcript, now);
      assert forall k | 1 <= k < |table| :: table[k] == table[1..][k - 1];
    }
  }

  /** main.py's if/elif chain is the scan of its three-row table. */
  lemma HandleCommandIsFirstMatch(transcript: string, now: Instant)
    requires IsValid(now)
    ensures HandleCommand(transcript, now) == FirstMatch(MainTable, transcript, now)
  {
    var t1, t2, t3 := MainTable[1..], MainTable[2..], MainTable[3..];
    assert t1[1..] == t2 && t2[1..] == t3 && t3 == [];
    assert FirstMatch(t3, transcript, now) == None;
    assert FirstMatch(t2, transcript, now) == if Contains(transcript, DateKeyword) then Some(DateReply(now)) else None;
    assert FirstMatch(t1, transcript, now)
      == if Contains(transcript, TimeKeyword) then Some(TimeReply(now)) else FirstMatch(t2, transcript, now);
  }

  /** main_beta.py's if/elif chain is the scan of its five-row table. */
  lemma HandleCommandBetaIsFirstMatch(transcript: string, now: Instant)
    requires IsValid(now)
    ensures HandleCommandBeta(transcript, now) == FirstMatch(BetaTable, transcript, now)
  {
    var t1, t2, t3, t4, t5 := BetaTable[1..], BetaTable[2..], BetaTable[3..], BetaTable[4..], BetaTable[5..];
    assert t1[1..] == t2 && t2[1..] == t3 && t3[1..] == t4 && t4[1..] == t5 && t5 == [];
    assert FirstMatch(t5, transcript, now) == None;
    assert FirstMatch(t4, transcript, now) == if Contains(transcript, CalcKeyword) then Some(CalcReply) else None;
    assert FirstMatch(t3, transcript, now)
      == if Contains(transcript, NewsKeyword) then Some(NewsReply) else FirstMatch(t4, transcript, now);
    assert FirstMatch(t2, transcript, now)
      == if Contains(transcript, DateKeyword) then Some(DateReply(now)) else FirstMatch(t3, transcript, now);
    assert FirstMatch(t1, transcript, now)
      == if Contains(transcript, TimeKeyword) then Some(TimeReply(now)) else FirstMatch(t2, transcript, now);
  }

  /** Priority "날씨" > "시간" > "날짜" in main.py: the earliest keyword present answers. */
  lemma HandleCommandPriority(transcript: string, now: Instant, k: int)
    requires IsValid(now)
    requires 0 <= k < |MainTable| && Contains(transcript, MainTable[k].0)
    requires forall j | 0 <= j < k :: !Contains(transcript, MainTable[j].0)
    ensures HandleCommand(transcript, now) == Some(Apply(MainTable[k].1, now))
  {
    HandleCommandIsFirstMatch(transcript, now);
    FirstMatchPicksEarliest(MainTable, transcript, now, k);
  }

  /** Priority "날씨" > "시간" > "날짜" > "뉴스" > "계산" in main_beta.py. */
  lemma HandleCommandBetaPriority(transcript: string, now: Instant, k: int)
    requires IsValid(now)
    requires 0 <= k < |BetaTable| && Contains(transcript, BetaTable[k].0)
    requires forall j | 0 <= j < k :: !Contains(transcript, BetaTable[j].0)
    ensures HandleCommandBeta(transcript, now) == Some(Apply(BetaTable[k].1, now))
  {
    HandleCommandBetaIsFirstMatch(transcript, now);
    FirstMatchPicksEarliest(BetaTable, transcript, now, k);
  }

  /** main.py returns None exactly when none of its three keywords occurs. */
  lemma HandleCommandNoneIff(transcript: string, now: Instant)
    requires IsValid(now)
    ensures HandleCommand(transcript, now).None?
      <==> forall k | 0 <= k < |MainTable| :: !Contains(transcript, MainTable[k].0)
  {
    HandleCommandIsFirstMatch(transcript, now);
    FirstMatchNone(MainTable, transcript, now);
  }

  /** main_beta.py returns None exactly when none of its five keywords occurs. */
  lemma HandleCommandBetaNoneIff(transcript: string, now: Instant)
    requires IsValid(now)
    ensures HandleCommandBeta(transcript, now).None?
      <==> forall k | 0 <= k < |BetaTable| :: !Contains(transcript, BetaTable[k].0)
  {
    HandleCommandBetaIsFirstMatch(transcript, now);
    FirstMatchNone(BetaTable, transcript, now);
  }

  /** The beta router only adds commands: where main.py answers, it gives the same answer. */
  lemma BetaExtendsMain(transcript: string, now: Instant)
    requires IsValid(now)
    ensures HandleCommand(transcript, now).Some?
      ==> HandleCommandBeta(transcript, now) == HandleCommand(transcript, now)
    ensures HandleCommand(transcript, now).None?
      ==> HandleCommandBeta(transcript, now) in {None, Some(NewsReply), Some(CalcReply)}
  {
  }

  /** The time reply embeds the clock reading: characters 7 to 15 parse back to it. */
  lemma TimeReplyReadsClock(now: Instant)
    requires IsValid(now)
    ensures var r := TimeReply(now);
      |r| == 19 && r[..7] == "현재 시간은 " && r[15..] == "입니다."
      && ParseTime(r[7..15]) == Some((now.hour, now.minute, now.second))
  {
    var r := TimeReply(now);
    assert r[7..15] == FormatTime(now);
    TimeRoundTrip(now);
  }

  /** The date reply embeds the calendar day: characters 4 to 14 parse back to it. */
  lemma DateReplyReadsClock(now: Instant)
    requires IsValid(now)
    ensures var r := DateReply(now);
      |r| == 18 && r[..4] == "오늘은 " && r[14..] == "입니다."
      && ParseDate(r[4..14]) == Some((now.year, now.month, now.day))
  {
    var r := DateReply(now);
    assert r[4..14] == FormatDate(now);
    DateRoundTrip(now);
  }

  /** "오늘 날씨 어때" holds the weather keyword: the fixed weather reply, in both editions. */
  lemma WeatherScenario(now: Instant)
    requires IsValid(now)
    ensures HandleCommand("오늘 날씨 어때", now) == Some(WeatherReply)
    ensures HandleCommandBeta("오늘 날씨 어때", now) == Some(WeatherReply)
  {
    var t := "오늘 날씨 어때";
    assert WeatherKeyword <= t[3..];
    assert t[1..][1..][1..] == t[3..];
  }

  /** A transcript holding both "날짜" and "시간", the date first, still gets the time:
      priority follows the keyword order, not the position in the text. */
  lemma TimeBeatsEarlierDate(now: Instant)
    requires IsValid(now)
    ensures HandleCommand("날짜랑 시간", now) == Some(TimeReply(now))
  {
    var t := "날짜랑 시간";
    assert TimeKeyword <= t[4..];
    assert t[1..][1..][1..][1..] == t[4..];
    AbsentChar(t, WeatherKeyword, 1);
  }
}

=== FILE: gui_events.dfy ===
/** The observable side of main_beta.py's worker loop: what it shows in the
    conversation window, when it listens, and the `speaking_event` flag that
    `my_tts` raises and lowers around each playback. The GUI callbacks queued
    with `root.after(0, ...)` run at the point they are queued. */
module GuiEvents {
  import opened Clock
  import opened Turns

  /** One observable step of the worker loop or of a callback it queues. */
  datatype Event =
    | Listen              // `r.listen(source)` opens the microphone
    | Show(line: string)  // `display_message(line)`
    | SpeakingOn          // `speaking_event.set()`
    | Play(text: string)  // `tts_engine.say(text)` and `runAndWait()`
    | SpeakingOff         // `speaking_event.clear()`
    | Wait                // `time.sleep(0.1)` while the flag is set

  /** The flag after one event. */
  function NextFlag(flag: bool, e: Event): bool
  {
    match e
    case SpeakingOn => true
    case SpeakingOff => false
    case _ => flag
  }

  /** The flag after a run of events that starts with the flag at `flag`. */
  function FlagFrom(flag: bool, es: seq<Event>): bool
    decreases |es|
  {
    if es == [] then flag else FlagFrom(NextFlag(flag, es[0]), es[1..])
  }

  /** Every `Listen` of the run happens while the flag is clear. */
  predicate QuietFrom(flag: bool, es: seq<Event>)
    decreases |es|
  {
    es == [] || ((es[0] == Listen ==> !flag) && QuietFrom(NextFlag(flag, es[0]), es[1..]))
  }

  lemma {:induction false} FlagConcat(flag: bool, a: seq<Event>, b: seq<Event>)
    ensures FlagFrom(flag, a + b) == FlagFrom(FlagFrom(flag, a), b)
    decreases |a|
  {
    if a == [] {
      assert a + b == b;
    } else {
      assert (a + b)[0] == a[0] && (a + b)[1..] == a[1..] + b;
      FlagConcat(NextFlag(flag, a[0]), a[1..], b);
    }
  }

  lemma {:induction false} QuietConcat(flag: bool, a: seq<Event>, b: seq<Event>)
    ensures QuietFrom(flag, a + b) <==> QuietFrom(flag, a) && QuietFrom(FlagFrom(flag, a), b)
    decreases |a|
  {
    if a == [] {
      assert a + b == b;
    } else {
      assert (a + b)[0] == a[0] && (a + b)[1..] == a[1..] + b;
      QuietConcat(NextFlag(flag, a[0]), a[1..], b);
    }
  }

  /** The recursive reading agrees with the positional one: at every `Listen`, the
      flag as left by the events before it is clear. */
  lemma {:induction false} QuietAtEveryListen(flag: bool, es: seq<Event>)
    ensures QuietFrom(flag, es)
      <==> forall i | 0 <= i < |es| && es[i] == Listen :: !FlagFrom(flag, es[..i])
    decreases |es|
  {
    if es != [] {
      var f, rest := NextFlag(flag, es[0]), es[1..];
      QuietAtEveryListen(f, rest);
      assert es[..0] == [];
      forall i | 1 <= i < |es|
        ensures FlagFrom(flag, es[..i]) == FlagFrom(f, rest[..i - 1])
      {
        assert es[..i][0] == es[0] && es[..i][1..] == rest[..i - 1];
      }
      forall i | 1 <= i < |es|
        ensures es[i] == rest[i - 1]
      {
      }
    }
  }

  /** How a playback ended: `runAndWait()` returned, or it raised. */
  datatype Playback = Finished | Raised

  /** `my_tts(text)`: the flag is set, the text played, and the flag cleared only if
      the playback returned normally; there is no `finally`. */
  function SpeechEvents(text: string, p: Playback): (r: seq<Event>)
    ensures 2 <= |r| && r[0] == SpeakingOn && r[1] == Play(text)
    ensures p == Finished <==> |r| == 3 && r[2] == SpeakingOff
  {
    [SpeakingOn, Play(text)] + (if p == Finished then [SpeakingOff] else [])
  }

  /** A playback leaves the flag set exactly when it raised, and never listens. */
  lemma SpeechEventsFlag(flag: bool, text: string, p: Playback)
    ensures FlagFrom(flag, SpeechEvents(text, p)) == (p == Raised)
    ensures QuietFrom(flag, SpeechEvents(text, p))
  {
    var es := SpeechEvents(text, p);
    assert es[0] == SpeakingOn && es[1..][0] == Play(text);
    var rest := es[1..][1..];
    assert FlagFrom(flag, es) == FlagFrom(true, es[1..]) == FlagFrom(true, rest);
    assert QuietFrom(flag, es) == QuietFrom(true, es[1..]) == QuietFrom(true, rest);
    if p == Finished {
      assert rest == [SpeakingOff] && rest[1..] == [];
      assert FlagFrom(true, rest) == FlagFrom(false, rest[1..]);
      assert QuietFrom(true, rest) == QuietFrom(false, rest[1..]);
    } else {
      assert rest == [];
    }
  }

  /** A turn speaks when it hands a text to `my_tts`. */
  predicate Speaks(t: Turn)
  {
    t.Replied? || t.Quitted? || t.Answered?
  }

  /** `display_and_tts(text)`: "AI: text" in the window, then the playback. */
  function ShowAndSpeak(text: string, p: Playback): seq<Event>
  {
    [Show("AI: " + text)] + SpeechEvents(text, p)
  }

  /** What a heeded loop iteration shows and plays after it has listened: a routed
      transcript is echoed as "User: ..."; a command reply or an answer is shown as
      "AI: ..." and spoken; the farewell is only spoken; an unrecognised utterance
      only shows its notice. A service error shows nothing: its queued callback reads
      the exception variable, which Python deletes when the `except` clause ends; in
      the likely order of the thread race that has happened before the callback runs,
      so the callback fails on the GUI thread before it displays anything. */
  function Reaction(t: Turn, p: Playback): seq<Event>
  {
    match t
    case Unheard(heard) =>
      (match heard
       case NotUnderstood => [Show(NotUnderstoodNotice)]
       case _ => [])
    case Replied(user, reply) => [Show("User: " + user)] + ShowAndSpeak(reply, p)
    case Quitted(user) => [Show("User: " + user)] + SpeechEvents(Farewell, p)
    case Answered(user, g) => [Show("User: " + user)] + ShowAndSpeak(Answer(g), p)
  }

  /** One heeded loop iteration: it listens first, then reacts. */
  function TurnEvents(t: Turn, p: Playback): seq<Event>
  {
    [Listen] + Reaction(t, p)
  }

  /** A heeded iteration captures exactly once, at its start, and never sleeps. */
  lemma TurnEventsListenOnce(t: Turn, p: Playback)
    ensures var es := TurnEvents(t, p); es[0] == Listen && Listen !in es[1..] && Wait !in es
  {
    var es := TurnEvents(t, p);
    assert es[1..] == Reaction(t, p);
  }

  /** A heeded iteration listens only at its start, with the flag clear, and leaves the
      flag set exactly when it spoke and the playback raised. */
  lemma TurnEventsFlag(t: Turn, p: Playback)
    ensures QuietFrom(false, TurnEvents(t, p))
    ensures FlagFrom(false, TurnEvents(t, p)) == (Speaks(t) && p == Raised)
  {
    var es, r := TurnEvents(t, p), Reaction(t, p);
    assert es[0] == Listen && es[1..] == r;
    assert FlagFrom(false, es) == FlagFrom(false, r);
    assert QuietFrom(false, es) == QuietFrom(false, r);
    if Speaks(t) {
      var text := match t
        case Replied(_, reply) => reply
        case Quitted(_) => Farewell
        case Answered(_, g) => Answer(g);
      var spoken := SpeechEvents(text, p);
      SpeechEventsFlag(true, text, p);
      SpeechEventsFlag(false, text, p);
      var tail := if t.Quitted? then spoken else ShowAndSpeak(text, p);
      assert r == [r[0]] + tail && r[0].Show?;
      FlagConcat(false, [r[0]], tail);
      QuietConcat(false, [r[0]], tail);
      assert FlagFrom(false, [r[0]]) == false && QuietFrom(false, [r[0]]) by {
        assert [r[0]][1..] == [];
      }
      if !t.Quitted? {
        assert tail == [tail[0]] + spoken && tail[0].Show?;
        FlagConcat(false, [tail[0]], spoken);
        QuietConcat(false, [tail[0]], spoken);
        assert FlagFrom(false, [tail[0]]) == false && QuietFrom(false, [tail[0]]) by {
          assert [tail[0]][1..] == [];
        }
      }
    } else if r != [] {
      assert r[0].Show? && r[1..] == [];
      assert FlagFrom(false, r) == FlagFrom(false, r[1..]);
      assert QuietFrom(false, r) == QuietFrom(false, r[1..]);
    }
  }

  /** The inputs of one pass of `stt_and_ai`'s loop: the capture and generator
      outcomes should the pass listen, and how its playback ends should it speak. */
  datatype Tick = Tick(input: TurnInput, playback: Playback)

  predicate TicksAdmissible(ticks: seq<Tick>)
  {
    forall i | 0 <= i < |ticks| :: Admissible(ticks[i].input)
  }

  /** Everything the GUI edition has produced so far, with the flag. */
  datatype GuiState = GuiState(trace: Trace, events: seq<Event>, speaking: bool)

  /** The flag is what the events left it at, and no capture happened while it was set. */
  predicate Consistent(st: GuiState)
  {
    st.speaking == FlagFrom(false, st.events) && QuietFrom(false, st.events)
  }

  /** One pass of the loop: while the flag is set it only sleeps; otherwise it takes
      a turn of the GUI edition. */
  function TickState(st: GuiState, tick: Tick): (r: GuiState)
    requires Admissible(tick.input)
    ensures st.events < r.events
    ensures st.speaking ==> r.trace == st.trace && r.speaking
  {
    if st.speaking then GuiState(st.trace, st.events + [Wait], true)
    else
      var t := Classify(Gui, tick.input);
      GuiState(AfterTurn(st.trace, t), st.events + TurnEvents(t, tick.playback), Speaks(t) && tick.playback == Raised)
  }

  /** The pass breaks out of the loop: it listened and heard "종료" without a command keyword. */
  predicate Quits(speaking: bool, tick: Tick)
    requires Admissible(tick.input)
  {
    !speaking && Classify(Gui, tick.input).Quitted?
  }

  /** The flag after a pass: a set flag stays set; a clear one is set only by a
      playback that raised. */
  lemma TickSpeaking(st: GuiState, tick: Tick)
    requires Admissible(tick.input)
    ensures TickState(st, tick).speaking
      == (st.speaking || (Speaks(Classify(Gui, tick.input)) && tick.playback == Raised))
  {
  }

  /** Successive passes of the loop. */
  function RunState(st: GuiState, ticks: seq<Tick>): GuiState
    requires TicksAdmissible(ticks)
  {
    if ticks == [] then st
    else TickState(RunState(st, ticks[..|ticks| - 1]), ticks[|ticks| - 1])
  }

  /** Taking one more pass of the inputs takes one more step. */
  lemma RunStateSnoc(st: GuiState, ticks: seq<Tick>, k: int)
    requires TicksAdmissible(ticks) && 0 <= k < |ticks|
    ensures RunState(st, ticks[..k + 1]) == TickState(RunState(st, ticks[..k]), ticks[k])
  {
    assert ticks[..k + 1][..k] == ticks[..k];
  }

  /** Some pass of the run broke out of the loop. */
  predicate Halted(st: GuiState, ticks: seq<Tick>)
    requires TicksAdmissible(ticks)
  {
    ticks != []
    && var init := ticks[..|ticks| - 1];
       (Halted(st, init) || Quits(RunState(st, init).speaking, ticks[|ticks| - 1]))
  }

  lemma HaltedSnoc(st: GuiState, ticks: seq<Tick>, k: int)
    requires TicksAdmissible(ticks) && 0 <= k < |ticks|
    ensures Halted(st, ticks[..k + 1])
      == (Halted(st, ticks[..k]) || Quits(RunState(st, ticks[..k]).speaking, ticks[k]))
  {
    assert ticks[..k + 1][..k] == ticks[..k];
  }

  /** Each pass keeps the flag and the events in step and listens only while it is clear. */
  lemma TickKeepsConsistent(st: GuiState, tick: Tick)
    requires Admissible(tick.input) && Consistent(st)
    ensures Consistent(TickState(st, tick))
  {
    if st.speaking {
      FlagConcat(false, st.events, [Wait]);
      QuietConcat(false, st.events, [Wait]);
    } else {
      var more := TurnEvents(Classify(Gui, tick.input), tick.playback);
      FlagConcat(false, st.events, more);
      QuietConcat(false, st.events, more);
      TurnEventsFlag(Classify(Gui, tick.input), tick.playback);
    }
  }

  /** A whole run listens only while the flag is clear. */
  lemma {:induction false} RunKeepsConsistent(st: GuiState, ticks: seq<Tick>)
    requires TicksAdmissible(ticks) && Consistent(st)
    ensures Consistent(RunState(st, ticks))
    decreases |ticks|
  {
    if ticks != [] {
      RunKeepsConsistent(st, ticks[..|ticks| - 1]);
      TickKeepsConsistent(RunState(st, ticks[..|ticks| - 1]), ticks[|ticks| - 1]);
    }
  }

  /** The turns a run actually takes: the passes that found the flag clear. */
  function Captured(st: GuiState, ticks: seq<Tick>): seq<Turn>
    requires TicksAdmissible(ticks)
  {
    if ticks == [] then []
    else
      var init := ticks[..|ticks| - 1];
      Captured(st, init)
        + (if RunState(st, init).speaking then [] else [Classify(Gui, ticks[|ticks| - 1].input)])
  }

  /** The history, log, prompts and speech of a GUI run are those of the turns it
      captured, so every property of a run of turns holds of them. */
  lemma {:induction false} RunTraceIsCaptured(st: GuiState, ticks: seq<Tick>)
    requires TicksAdmissible(ticks)
    ensures RunState(st, ticks).trace == After(st.trace, Captured(st, ticks))
    decreases |ticks|
  {
    if ticks == [] {
      assert After(st.trace, []) == st.trace;
    } else {
      var init, last := ticks[..|ticks| - 1], ticks[|ticks| - 1];
      RunTraceIsCaptured(st, init);
      var mid := RunState(st, init);
      assert RunState(st, ticks) == TickState(mid, last);
      if mid.speaking {
        assert Captured(st, ticks) == Captured(st, init) + [];
        assert Captured(st, init) + [] == Captured(st, init);
      } else {
        var t := Classify(Gui, last.input);
        assert Captured(st, ticks) == Captured(st, init) + [t];
        AfterSnoc(st.trace, Captured(st, init), t);
      }
    }
  }

  /** Once the flag is set, the loop only sleeps: nothing is captured, nothing is
      recorded, logged or spoken, and the flag stays set for good. */
  lemma {:induction false} StuckFlagIsDeaf(st: GuiState, ticks: seq<Tick>)
    requires TicksAdmissible(ticks) && st.speaking
    ensures RunState(st, ticks) == GuiState(st.trace, st.events + seq(|ticks|, _ => Wait), true)
    ensures Captured(st, ticks) == []
    decreases |ticks|
  {
    if ticks != [] {
      var init := ticks[..|ticks| - 1];
      StuckFlagIsDeaf(st, init);
      assert seq(|init|, _ => Wait) + [Wait] == seq(|ticks|, _ => Wait);
    }
  }

  /** A playback that raises leaves the flag set, so the pass that spoke is the last
      one ever heard: whatever the later passes hold, none of them is captured. */
  lemma RaisedPlaybackDeafens(st: GuiState, tick: Tick, later: seq<Tick>)
    requires Admissible(tick.input) && TicksAdmissible(later)
    requires !st.speaking && Speaks(Classify(Gui, tick.input)) && tick.playback == Raised
    ensures TickState(st, tick).speaking
    ensures Captured(TickState(st, tick), later) == []
    ensures RunState(TickState(st, tick), later).trace == AfterTurn(st.trace, Classify(Gui, tick.input))
  {
    StuckFlagIsDeaf(TickState(st, tick), later);
  }

  /** While every playback returns normally the flag is clear after each pass. */
  lemma {:induction false} FinishedPlaybackFreesFlag(st: GuiState, ticks: seq<Tick>)
    requires TicksAdmissible(ticks) && !st.speaking
    requires forall i | 0 <= i < |ticks| :: ticks[i].playback == Finished
    ensures !RunState(st, ticks).speaking
    decreases |ticks|
  {
    if ticks != [] {
      var init, last := ticks[..|ticks| - 1], ticks[|ticks| - 1];
      FinishedPlaybackFreesFlag(st, init);
      TickSpeaking(RunState(st, init), last);
    }
  }

  /** The capture and generator outcomes of the passes. */
  function Inputs(ticks: seq<Tick>): (xs: seq<TurnInput>)
    ensures |xs| == |ticks| && forall i | 0 <= i < |ticks| :: xs[i] == ticks[i].input
  {
    if ticks == [] then [] else Inputs(ticks[..|ticks| - 1]) + [ticks[|ticks| - 1].input]
  }

  /** So while every playback returns normally, every pass is captured, in order:
      the GUI run takes the same turns as the console loop on the same outcomes. */
  lemma {:induction false} FinishedPlaybackHearsAll(st: GuiState, ticks: seq<Tick>)
    requires TicksAdmissible(ticks) && !st.speaking
    requires forall i | 0 <= i < |ticks| :: ticks[i].playback == Finished
    ensures AllAdmissible(Inputs(ticks))
    ensures Captured(st, ticks) == Classified(Gui, Inputs(ticks))
    decreases |ticks|
  {
    if ticks != [] {
      var init, last := ticks[..|ticks| - 1], ticks[|ticks| - 1];
      FinishedPlaybackHearsAll(st, init);
      FinishedPlaybackFreesFlag(st, init);
      var xs := Inputs(ticks);
      assert xs[..|xs| - 1] == Inputs(init);
      assert Classified(Gui, xs) == Classified(Gui, Inputs(init)) + [Classify(Gui, last.input)];
    }
  }
}

=== FILE: prompt.dfy ===
/** The conversation history entries and the text rendered from them: the
    prompt sent to the generator and the block appended to the transcript file. */
module Prompt {

  /** One element of `conversation_history`: `{"user": ..., "ai": ...}`. */
  datatype Entry = Entry(user: string, ai: string)

  /** `f"User: {entry['user']}\nAI: {entry['ai']}"` */
  function RenderEntry(e: Entry): (r: string)
    ensures |r| == 11 + |e.user| + |e.ai|
    ensures r[6..6 + |e.user|] == e.user && r[|r| - |e.ai|..] == e.ai
  {
    "User: " + e.user + "\nAI: " + e.ai
  }

  /** Python's `sep.join(parts)`. */
  function Join(sep: string, parts: seq<string>): string
  {
    if parts == [] then ""
    else if |parts| == 1 then parts[0]
    else parts[0] + sep + Join(sep, parts[1..])
  }

  function RenderEntries(h: seq<Entry>): (r: seq<string>)
    ensures |r| == |h| && forall i | 0 <= i < |h| :: r[i] == RenderEntry(h[i])
  {
    if h == [] then [] else [RenderEntry(h[0])] + RenderEntries(h[1..])
  }

  /** The `history` string: the rendered entries joined by newlines. */
  function RenderHistory(h: seq<Entry>): (r: string)
    ensures r == [] <==> h == []
    ensures h != [] ==> RenderEntry(h[0]) <= r
  {
    Join("\n", RenderEntries(h))
  }

  const Instruction := "간결하고 대화형으로 대답해 주세요. 이모티콘은 사용하지 말아 주세요."

  /** `concise_prompt`: the whole history, then the new user line and the fixed instruction. */
  function RenderPrompt(h: seq<Entry>, userText: string): (r: string)
    ensures RenderHistory(h) <= r
    ensures |Instruction| <= |r| && r[|r| - |Instruction|..] == Instruction
  {
    RenderHistory(h) + "\nUser: " + userText + "\nAI: " + Instruction
  }

  /** The new user line follows the whole history: the user text sits right after
      the rendered history and the "\nUser: " label. */
  lemma PromptAsksUser(h: seq<Entry>, userText: string)
    ensures var r, k := RenderPrompt(h, userText), |RenderHistory(h)| + 7;
      k + |userText| <= |r| && r[k..k + |userText|] == userText
  {
  }

  /** The block `update_conversation_history` writes to conversation_history.txt: the
      entry as the prompt renders it, then a blank line. */
  function TranscriptBlock(e: Entry): (r: string)
    ensures r == RenderEntry(e) + "\n\n"
  {
    "User: " + e.user + "\nAI: " + e.ai + "\n\n"
  }

  /** Joining one more part appends the separator and that part. */
  lemma {:induction false} JoinSnoc(sep: string, parts: seq<string>, last: string)
    ensures Join(sep, parts + [last])
      == if parts == [] then last else Join(sep, parts) + sep + last
    decreases |parts|
  {
    if |parts| == 1 {
      assert parts + [last] == [parts[0], last];
      assert [parts[0], last][1..] == [last];
    } else if 1 < |parts| {
      assert (parts + [last])[1..] == parts[1..] + [last];
      JoinSnoc(sep, parts[1..], last);
    }
  }

  lemma {:induction false} RenderEntriesSnoc(h: seq<Entry>, e: Entry)
    ensures RenderEntries(h + [e]) == RenderEntries(h) + [RenderEntry(e)]
  {
    var l, r := RenderEntries(h + [e]), RenderEntries(h) + [RenderEntry(e)];
    assert |l| == |r|;
    assert forall i | 0 <= i < |l| :: l[i] == r[i];
  }

  /** Appending an entry extends the rendered history by one newline-separated block. */
  lemma RenderHistoryAppend(h: seq<Entry>, e: Entry)
    ensures RenderHistory(h + [e])
      == (if h == [] then "" else RenderHistory(h) + "\n") + RenderEntry(e)
  {
    RenderEntriesSnoc(h, e);
    JoinSnoc("\n", RenderEntries(h), RenderEntry(e));
  }

  /** Earlier turns are never rewritten: the history rendered before a turn is a
      prefix of the history rendered after it, and strictly shorter. */
  lemma RenderHistoryGrows(h: seq<Entry>, e: Entry)
    ensures RenderHistory(h) <= RenderHistory(h + [e])
    ensures |RenderHistory(h + [e])| >= |RenderHistory(h)| + |RenderEntry(e)|
  {
    RenderHistoryAppend(h, e);
  }

  /** There is no truncation: the rendered history of any history `h` is a prefix of
      that of every extension `h + more`. */
  lemma {:induction false} RenderHistoryPrefix(h: seq<Entry>, more: seq<Entry>)
    ensures RenderHistory(h) <= RenderHistory(h + more)
    decreases |more|
  {
    if more == [] {
      assert h + more == h;
    } else {
      var init, last := more[..|more| - 1], more[|more| - 1];
      assert h + more == (h + init) + [last];
      RenderHistoryPrefix(h, init);
      RenderHistoryGrows(h + init, last);
      var a, b, c := RenderHistory(h), RenderHistory(h + init), RenderHistory(h + more);
      assert a == b[..|a|] && b == c[..|b|];
      assert c[..|b|][..|a|] == c[..|a|];
    }
  }

  /** No truncation: a prompt built after more entries were recorded still begins
      with the whole earlier history. */
  lemma PromptKeepsHistory(h: seq<Entry>, more: seq<Entry>, userText: string)
    ensures RenderHistory(h) <= RenderPrompt(h + more, userText)
  {
    RenderHistoryPrefix(h, more);
    var a, b := RenderHistory(h), RenderHistory(h + more);
    var p := RenderPrompt(h + more, userText);
    assert a == b[..|a|] && b == p[..|b|];
    assert p[..|b|][..|a|] == p[..|a|];
  }

  /** The prompt grows by at least the newly rendered entry with every recorded turn. */
  lemma PromptGrows(h: seq<Entry>, e: Entry, userText: string)
    ensures |RenderPrompt(h + [e], userText)| >= |RenderPrompt(h, userText)| + |RenderEntry(e)|
  {
    RenderHistoryGrows(h, e);
  }

  /** Every recorded entry shows in the prompt, right after the entries before it. */
  lemma PromptShowsEntry(h: seq<Entry>, userText: string, i: int)
    requires 0 <= i < |h|
    ensures RenderHistory(h[..i]) + (if i == 0 then "" else "\n") + RenderEntry(h[i])
      <= RenderPrompt(h, userText)
  {
    var pre := h[..i];
    assert h[..i + 1] == pre + [h[i]];
    assert h == h[..i + 1] + h[i + 1..];
    RenderHistoryPrefix(h[..i + 1], h[i + 1..]);
    RenderHistoryAppend(pre, h[i]);
    var a, b := RenderHistory(h[..i + 1]), RenderHistory(h);
    var c := RenderPrompt(h, userText);
    assert a == b[..|a|] && b == c[..|b|];
    assert c[..|b|][..|a|] == c[..|a|];
  }
}

=== FILE: text.dfy ===
/** The two pieces of Python `str` behaviour the turn logic depends on:
    the substring test `needle in haystack` and `str.strip()`. */
module Text {

  /** `needle in haystack`: the needle is a prefix of some suffix of the haystack. */
  predicate Contains(haystack: string, needle: string)
    ensures Contains(haystack, needle) ==> |needle| <= |haystack|
    ensures needle == [] ==> Contains(haystack, needle)
    decreases |haystack|
  {
    needle <= haystack || (0 < |haystack| && Contains(haystack[1..], needle))
  }

  /** Reference reading of the substring test: the needle starts at position `i`. */
  ghost predicate OccursAt(haystack: string, needle: string, i: int)
  {
    0 <= i <= |haystack| && needle <= haystack[i..]
  }

  /** The scan agrees with the positional definition, in both directions. */
  lemma {:induction false} ContainsIffOccurs(haystack: string, needle: string)
    ensures Contains(haystack, needle) <==> exists i :: OccursAt(haystack, needle, i)
    decreases |haystack|
  {
    if needle <= haystack {
      assert haystack[0..] == haystack;
      assert OccursAt(haystack, needle, 0);
    } else if 0 < |haystack| {
      var tail := haystack[1..];
      ContainsIffOccurs(tail, needle);
      if Contains(tail, needle) {
        var i :| OccursAt(tail, needle, i);
        assert tail[i..] == haystack[i + 1..];
        assert OccursAt(haystack, needle, i + 1);
      } else {
        forall i | OccursAt(haystack, needle, i)
          ensures false
        {
          if i != 0 {
            assert tail[i - 1..] == haystack[i..];
            assert OccursAt(tail, needle, i - 1);
          }
        }
      }
    } else {
      forall i | OccursAt(haystack, needle, i)
        ensures false
      {
      }
    }
  }

  /** Every character of an occurring needle is a character of the haystack. */
  lemma {:induction false} CharOfOccurrence(haystack: string, needle: string, j: int)
    requires 0 <= j < |needle|
    ensures Contains(haystack, needle) ==> needle[j] in haystack
    decreases |haystack|
  {
    if needle <= haystack {
      assert haystack[j] == needle[j];
    } else if 0 < |haystack| {
      CharOfOccurrence(haystack[1..], needle, j);
      if Contains(haystack[1..], needle) {
        var i :| 0 <= i < |haystack[1..]| && haystack[1..][i] == needle[j];
        assert haystack[i + 1] == needle[j];
      }
    }
  }

  /** A needle holding a character the haystack lacks cannot occur in it. */
  lemma AbsentChar(haystack: string, needle: string, j: int)
    requires 0 <= j < |needle| && needle[j] !in haystack
    ensures !Contains(haystack, needle)
  {
    CharOfOccurrence(haystack, needle, j);
  }

  /** Python's `str.isspace()` for one character: the Unicode characters of
      bidirectional class WS, B or S, or of category Zs. */
  predicate IsSpace(c: char)
    ensures c == ' ' || c == '\t' || c == '\n' || c == '\r' ==> IsSpace(c)
    ensures '0' <= c <= '9' || 'A' <= c <= 'Z' || 'a' <= c <= 'z' || '가' <= c <= '힣' ==> !IsSpace(c)
  {
    ('\t' <= c <= '\r') || ('\U{1c}' <= c <= '\U{1f}') || c == ' '
    || c == '\U{85}' || c == '\U{a0}' || c == '\U{1680}'
    || ('\U{2000}' <= c <= '\U{200a}') || c == '\U{2028}' || c == '\U{2029}'
    || c == '\U{202f}' || c == '\U{205f}' || c == '\U{3000}'
  }

  /** `s.lstrip()`: drops exactly the longest whitespace prefix. */
  function StripLeading(s: string): (r: string)
    ensures |r| <= |s| && r == s[|s| - |r|..]
    ensures forall i | 0 <= i < |s| - |r| :: IsSpace(s[i])
    ensures r == [] || !IsSpace(r[0])
  {
    if 0 < |s| && IsSpace(s[0]) then StripLeading(s[1..]) else s
  }

  /** `s.rstrip()`: drops exactly the longest whitespace suffix. */
  function StripTrailing(s: string): (r: string)
    ensures |r| <= |s| && r == s[..|r|]
    ensures forall i | |r| <= i < |s| :: IsSpace(s[i])
    ensures r == [] || !IsSpace(r[|r| - 1])
  {
    if 0 < |s| && IsSpace(s[|s| - 1]) then StripTrailing(s[..|s| - 1]) else s
  }

  /** `s.strip()`: leading and trailing whitespace removed. */
  function Strip(s: string): (r: string)
    ensures |r| <= |s|
    ensures r == [] || (!IsSpace(r[0]) && !IsSpace(r[|r| - 1]))
  {
    StripTrailing(StripLeading(s))
  }

  /** What `strip()` removes is whitespace only: the result is the slice of `s`
      starting after the leading whitespace, and everything after it is whitespace. */
  lemma StripCutsOnlySpace(s: string)
    ensures var k := |s| - |StripLeading(s)|;
      k + |Strip(s)| <= |s| && Strip(s) == s[k..k + |Strip(s)|]
      && (forall i | 0 <= i < k :: IsSpace(s[i]))
      && (forall i | k + |Strip(s)| <= i < |s| :: IsSpace(s[i]))
  {
    var t := StripLeading(s);
    var r := StripTrailing(t);
    var k := |s| - |t|;
    assert Strip(s) == r;
    assert t == s[k..];
    assert r == t[..|r|];
    assert t[..|r|] == s[k..k + |r|];
    forall i | k + |r| <= i < |s|
      ensures IsSpace(s[i])
    {
      assert s[i] == t[i - k];
    }
  }

  /** A string without whitespace at its ends is left as it is, so stripping is idempotent. */
  lemma StripKeepsClean(s: string)
    requires s == [] || (!IsSpace(s[0]) && !IsSpace(s[|s| - 1]))
    ensures Strip(s) == s
  {
  }

  lemma StripIdempotent(s: string)
    ensures Strip(Strip(s)) == Strip(s)
  {
    StripKeepsClean(Strip(s));
  }
}

=== FILE: turns.dfy ===
/** The turn routing both entry points share: what a capture yields, which
    transcript is routed, local command first, then the "종료" check, then
    generation, and what each turn leaves in the history and the logs. The
    recognizer, the generator and the clock are inputs of a turn. */
module Turns {
  import opened Wrappers
  import opened Text
  import opened Clock
  import opened Commands
  import opened Prompt

  /** One element of the recognizer's `'alternative'` list; `transcript` is None
      when the element has no `'transcript'` key. */
  datatype Alternative = Alternative(transcript: Option<string>)

  /** What one capture attempt with `recognize_google(..., show_all=True)` yields. */
  datatype Recognition =
    | Heard(alternatives: Option<seq<Alternative>>)  // a truthy result; None when it lacks an 'alternative' key
    | NothingHeard                                   // a falsy result
    | NotUnderstood                                  // sr.UnknownValueError
    | ServiceFailed(detail: string)                  // sr.RequestError

  /** An empty `'alternative'` list would raise IndexError; callers never pass one. */
  predicate WellFormed(r: Recognition)
  {
    r.Heard? && r.alternatives.Some? ==> r.alternatives.value != []
  }

  /** `result.get('alternative', [{}])[0].get('transcript', '')` */
  function Transcript(alternatives: Option<seq<Alternative>>): (r: string)
    requires alternatives.Some? ==> alternatives.value != []
    ensures alternatives.None? ==> r == ""
    ensures r != "" ==> alternatives.Some? && alternatives.value[0].transcript == Some(r)
    ensures (alternatives.Some? && alternatives.value[0].transcript.Some?
             && alternatives.value[0].transcript.value != "") ==> r != ""
  {
    match alternatives
    case None => ""
    case Some(alts) => alts[0].transcript.GetOr("")
  }

  /** What one call of the remote generator yields: the raw response text, or the
      message of the exception raised by the call or by reading `response.text`. */
  datatype Generation = Generated(text: string) | GenerationFailed(detail: string)

  /** Which entry point runs: main.py on the console, or main_beta.py behind the GUI. */
  datatype Edition = Console | Gui

  function Table(edition: Edition): seq<(string, Handler)>
  {
    match edition
    case Console => MainTable
    case Gui => BetaTable
  }

  /** The edition's `handle_command`. */
  function Command(edition: Edition, transcript: string, now: Instant): Option<string>
    requires IsValid(now)
  {
    match edition
    case Console => HandleCommand(transcript, now)
    case Gui => HandleCommandBeta(transcript, now)
  }

  /** No command keyword of the edition occurs in the transcript. */
  predicate NoKeyword(edition: Edition, transcript: string)
  {
    forall k | 0 <= k < |Table(edition)| :: !Contains(transcript, Table(edition)[k].0)
  }

  const QuitKeyword := "종료"
  const Farewell := "프로그램을 종료합니다."
  const Fallback := "응답을 받을 수 없습니다."
  const ErrorPrefix := "Gemini API 요청 오류: "
  const NotUnderstoodNotice := "AI: 인식하지 못했습니다. 다시 시도해 주세요."

  /** Where a recognized transcript goes. */
  datatype Route = LocalReply(reply: string) | Quit | Ask

  /** The routing of a transcript: a command reply first (its truthiness test), then
      the "종료" substring test, else the generator. */
  function RouteOf(edition: Edition, transcript: string, now: Instant): (r: Route)
    requires IsValid(now)
    ensures r.LocalReply? <==> Command(edition, transcript, now).Some?
    ensures r.LocalReply? ==> r.reply != []
    ensures r.Quit? ==> Contains(transcript, QuitKeyword)
  {
    match Command(edition, transcript, now)
    case Some(reply) => LocalReply(reply)
    case None => if Contains(transcript, QuitKeyword) then Quit else Ask
  }

  /** What `generate_ai_response` returns: the stripped text, or the fixed fallback. */
  function Answer(g: Generation): (r: string)
    ensures g.GenerationFailed? ==> r != []
  {
    match g
    case Generated(text) => Strip(text)
    case GenerationFailed(_) => Fallback
  }

  /** Whatever `generate_ai_response` returns is already stripped: the stripped
      generator text, or the fallback, which has no whitespace at its ends. */
  lemma AnswerIsStripped(g: Generation)
    ensures Strip(Answer(g)) == Answer(g)
  {
    match g
    case Generated(text) => StripIdempotent(text);
    case GenerationFailed(_) => StripKeepsClean(Fallback);
  }

  /** What `generate_ai_response` appends to the history: one entry on success, none on failure. */
  function Recorded(userText: string, g: Generation): (r: seq<Entry>)
    ensures |r| <= 1 && (r != [] <==> g.Generated?)
    ensures r != [] ==> r[0] == Entry(userText, Answer(g))
  {
    match g
    case Generated(text) => [Entry(userText, Strip(text))]
    case GenerationFailed(_) => []
  }

  /** One line of app.log. */
  datatype Log = Info(message: string) | Error(message: string)

  /** `log_interaction(user_input, ai_response)` */
  function Interaction(userText: string, reply: string): seq<Log>
  {
    [Info("User: " + userText), Info("AI: " + reply)]
  }

  /** The app.log lines `generate_ai_response` writes. */
  function GenerationLogs(userText: string, g: Generation): (r: seq<Log>)
    ensures g.Generated? ==> r == Interaction(userText, Answer(g))
    ensures g.GenerationFailed? ==> |r| == 1 && r[0].Error?
  {
    match g
    case Generated(text) => Interaction(userText, Strip(text))
    case GenerationFailed(detail) => [Error(ErrorPrefix + detail)]
  }

  /** The inputs of one loop iteration: the capture, the generator's outcome should it
      be called, and the clock reading should a command read it. */
  datatype TurnInput = TurnInput(heard: Recognition, reply: Generation, now: Instant)

  predicate Admissible(x: TurnInput)
  {
    WellFormed(x.heard) && IsValid(x.now)
  }

  predicate AllAdmissible(xs: seq<TurnInput>)
  {
    forall i | 0 <= i < |xs| :: Admissible(xs[i])
  }

  /** How one loop iteration went. */
  datatype Turn =
    | Unheard(heard: Recognition)                  // the capture gave nothing to route
    | Replied(user: string, reply: string)         // a local command answered
    | Quitted(user: string)                        // "종료": farewell and exit
    | Answered(user: string, outcome: Generation)  // the generator was called

  /** The routing of one loop iteration. */
  function Classify(edition: Edition, x: TurnInput): Turn
    requires Admissible(x)
  {
    if !x.heard.Heard? then Unheard(x.heard)
    else
      var user := Transcript(x.heard.alternatives);
      match RouteOf(edition, user, x.now)
      case LocalReply(reply) => Replied(user, reply)
      case Quit => Quitted(user)
      case Ask => Answered(user, x.reply)
  }

  lemma ClassifyCases(edition: Edition, x: TurnInput)
    requires Admissible(x)
    ensures var t := Classify(edition, x);
      && (t.Unheard? <==> !x.heard.Heard?)
      && (t.Unheard? ==> t.heard == x.heard)
      && (!t.Unheard? ==> t.user == Transcript(x.heard.alternatives))
      && (t.Replied? <==> x.heard.Heard? && !NoKeyword(edition, t.user))
      && (t.Replied? ==> Command(edition, t.user, x.now) == Some(t.reply) && t.reply != [])
      && (t.Quitted? ==> NoKeyword(edition, t.user) && Contains(t.user, QuitKeyword))
      && (t.Answered? ==> NoKeyword(edition, t.user) && !Contains(t.user, QuitKeyword))
      && (t.Answered? ==> t.outcome == x.reply)
  {
    if x.heard.Heard? {
      RouteCases(edition, Transcript(x.heard.alternatives), x.now);
    }
  }

  /** How each iteration of a run went. */
  function Classified(edition: Edition, xs: seq<TurnInput>): (ts: seq<Turn>)
    requires AllAdmissible(xs)
    ensures |ts| == |xs| && forall i | 0 <= i < |xs| :: ts[i] == Classify(edition, xs[i])
  {
    if xs == [] then []
    else Classified(edition, xs[..|xs| - 1]) + [Classify(edition, xs[|xs| - 1])]
  }

  /** History entries one turn appends. */
  function TurnEntries(t: Turn): seq<Entry>
  {
    if t.Answered? then Recorded(t.user, t.outcome) else []
  }

  /** app.log lines one turn writes. */
  function TurnLogs(t: Turn): seq<Log>
  {
    match t
    case Unheard(_) => []
    case Replied(user, reply) => Interaction(user, reply)
    case Quitted(_) => []
    case Answered(user, g) => GenerationLogs(user, g)
  }

  /** Prompts one turn sends to the generator, built from the history `h` it starts with. */
  function TurnPrompts(h: seq<Entry>, t: Turn): seq<string>
  {
    if t.Answered? then [RenderPrompt(h, t.user)] else []
  }

  /** The text a turn hands to the speech engine, if any. */
  function TurnSpeech(t: Turn): seq<string>
  {
    match t
    case Unheard(_) => []
    case Replied(_, reply) => [reply]
    case Quitted(_) => [Farewell]
    case Answered(_, g) => [Answer(g)]
  }

  // ---------------------------------------------------------------------------
  // A run of turns, turn by turn.

  function Entries(ts: seq<Turn>): seq<Entry>
  {
    if ts == [] then [] else Entries(ts[..|ts| - 1]) + TurnEntries(ts[|ts| - 1])
  }

  function Logs(ts: seq<Turn>): seq<Log>
  {
    if ts == [] then [] else Logs(ts[..|ts| - 1]) + TurnLogs(ts[|ts| - 1])
  }

  function Speech(ts: seq<Turn>): seq<string>
  {
    if ts == [] then [] else Speech(ts[..|ts| - 1]) + TurnSpeech(ts[|ts| - 1])
  }

  /** The prompts of a run that starts from history `h`: each is rendered from the
      history as it stands when its turn begins. */
  function Prompts(h: seq<Entry>, ts: seq<Turn>): seq<string>
  {
    if ts == [] then []
    else
      var init := ts[..|ts| - 1];
      Prompts(h, init) + TurnPrompts(h + Entries(init), ts[|ts| - 1])
  }

  /** Taking one more turn of the inputs classifies one more turn. */
  lemma ClassifiedSnoc(edition: Edition, xs: seq<TurnInput>, k: int)
    requires AllAdmissible(xs) && 0 <= k < |xs|
    ensures Classified(edition, xs[..k + 1]) == Classified(edition, xs[..k]) + [Classify(edition, xs[k])]
  {
    assert xs[..k + 1][..k] == xs[..k];
  }

  /** What a run has produced so far: the history list, the app.log lines, the
      prompts sent and the texts spoken. */
  datatype Trace = Trace(history: seq<Entry>, logs: seq<Log>, prompts: seq<string>, speech: seq<string>)

  /** The trace after one more turn. */
  function AfterTurn(tr: Trace, t: Turn): Trace
  {
    Trace(tr.history + TurnEntries(t), tr.logs + TurnLogs(t),
          tr.prompts + TurnPrompts(tr.history, t), tr.speech + TurnSpeech(t))
  }

  /** The trace after a run of turns. */
  function After(tr: Trace, ts: seq<Turn>): Trace
  {
    Trace(tr.history + Entries(ts), tr.logs + Logs(ts),
          tr.prompts + Prompts(tr.history, ts), tr.speech + Speech(ts))
  }

  lemma HistorySnoc(tr: Trace, ts: seq<Turn>, t: Turn)
    ensures After(tr, ts + [t]).history == AfterTurn(After(tr, ts), t).history
  {
    assert (ts + [t])[..|ts|] == ts;
  }

  lemma LogsSnoc(tr: Trace, ts: seq<Turn>, t: Turn)
    ensures After(tr, ts + [t]).logs == AfterTurn(After(tr, ts), t).logs
  {
    assert (ts + [t])[..|ts|] == ts;
  }

  lemma SpeechSnoc(tr: Trace, ts: seq<Turn>, t: Turn)
    ensures After(tr, ts + [t]).speech == AfterTurn(After(tr, ts), t).speech
  {
    assert (ts + [t])[..|ts|] == ts;
  }

  lemma PromptsSnoc(tr: Trace, ts: seq<Turn>, t: Turn)
    ensures After(tr, ts + [t]).prompts == AfterTurn(After(tr, ts), t).prompts
  {
    assert (ts + [t])[..|ts|] == ts;
  }

  /** A run is its turns one after another. */
  lemma AfterSnoc(tr: Trace, ts: seq<Turn>, t: Turn)
    ensures After(tr, ts + [t]) == AfterTurn(After(tr, ts), t)
  {
    HistorySnoc(tr, ts, t);
    LogsSnoc(tr, ts, t);
    SpeechSnoc(tr, ts, t);
    PromptsSnoc(tr, ts, t);
  }

  // ---------------------------------------------------------------------------
  // Properties of the routing.

  /** `handle_command` answers None exactly when no keyword of its edition occurs. */
  lemma CommandNoneIff(edition: Edition, transcript: string, now: Instant)
    requires IsValid(now)
    ensures Command(edition, transcript, now).None? <==> NoKeyword(edition, transcript)
  {
    match edition
    case Console =>
      assert Table(Console) == MainTable;
      HandleCommandNoneIff(transcript, now);
    case Gui =>
      assert Table(Gui) == BetaTable;
      HandleCommandBetaNoneIff(transcript, now);
  }

  /** The three routes, each characterized by the keywords the transcript holds:
      a command keyword always wins over "종료"; "종료" without one quits; the rest asks. */
  lemma RouteCases(edition: Edition, transcript: string, now: Instant)
    requires IsValid(now)
    ensures RouteOf(edition, transcript, now).LocalReply? <==> !NoKeyword(edition, transcript)
    ensures RouteOf(edition, transcript, now) == Quit
      <==> NoKeyword(edition, transcript) && Contains(transcript, QuitKeyword)
    ensures RouteOf(edition, transcript, now) == Ask
      <==> NoKeyword(edition, transcript) && !Contains(transcript, QuitKeyword)
  {
    CommandNoneIff(edition, transcript, now);
  }

  /** "시간 종료" holds the time keyword and the quit keyword: the time reply is given
      and the loop goes on, in both editions. */
  lemma TimeBeforeQuit(edition: Edition, now: Instant)
    requires IsValid(now)
    ensures RouteOf(edition, "시간 종료", now) == LocalReply(TimeReply(now))
  {
    var t := "시간 종료";
    AbsentChar(t, WeatherKeyword, 1);
    assert TimeKeyword <= t;
  }

  /** The transcript "종료" quits in both editions. */
  lemma QuitScenario(edition: Edition, now: Instant)
    requires IsValid(now)
    ensures RouteOf(edition, "종료", now) == Quit
  {
    var t := "종료";
    AbsentChar(t, WeatherKeyword, 1);
    AbsentChar(t, TimeKeyword, 1);
    AbsentChar(t, DateKeyword, 1);
    AbsentChar(t, NewsKeyword, 1);
    AbsentChar(t, CalcKeyword, 1);
    assert QuitKeyword <= t;
  }

  /** "지금 몇 시야" holds no keyword ("시" alone is not "시간"): it goes to the generator. */
  lemma WhatTimeScenario(edition: Edition, now: Instant)
    requires IsValid(now)
    ensures RouteOf(edition, "지금 몇 시야", now) == Ask
  {
    var t := "지금 몇 시야";
    AbsentChar(t, WeatherKeyword, 1);
    AbsentChar(t, TimeKeyword, 1);
    AbsentChar(t, DateKeyword, 1);
    AbsentChar(t, NewsKeyword, 1);
    AbsentChar(t, CalcKeyword, 1);
    assert Command(edition, t, now) == None;
    AbsentChar(t, QuitKeyword, 1);
  }

  /** A missing `'alternative'` key or a missing `'transcript'` key routes the empty
      transcript, which holds no keyword and goes to the generator. */
  lemma EmptyTranscriptAsks(edition: Edition, now: Instant)
    requires IsValid(now)
    ensures Transcript(None) == "" && Transcript(Some([Alternative(None)])) == ""
    ensures RouteOf(edition, "", now) == Ask
  {
    AbsentChar("", WeatherKeyword, 0);
    AbsentChar("", TimeKeyword, 0);
    AbsentChar("", DateKeyword, 0);
    AbsentChar("", NewsKeyword, 0);
    AbsentChar("", CalcKeyword, 0);
    AbsentChar("", QuitKeyword, 0);
  }

  // ---------------------------------------------------------------------------
  // Properties of a run.

  /** A run appends at most one entry per turn. */
  lemma {:induction false} EntriesAtMostOnePerTurn(ts: seq<Turn>)
    ensures |Entries(ts)| <= |ts|
    decreases |ts|
  {
    if ts != [] {
      EntriesAtMostOnePerTurn(ts[..|ts| - 1]);
    }
  }

  /** A transcript the generator is asked about: no command keyword, no "종료". */
  predicate Question(edition: Edition, user: string)
  {
    NoKeyword(edition, user) && !Contains(user, QuitKeyword)
  }

  lemma {:induction false} EntriesOfQuestions(edition: Edition, ts: seq<Turn>)
    requires forall i | 0 <= i < |ts| :: ts[i].Answered? ==> Question(edition, ts[i].user)
    ensures forall e | e in Entries(ts) :: Question(edition, e.user) && e.ai == Strip(e.ai)
    decreases |ts|
  {
    if ts != [] {
      var init, t := ts[..|ts| - 1], ts[|ts| - 1];
      EntriesOfQuestions(edition, init);
      if t.Answered? && t.outcome.Generated? {
        StripIdempotent(t.outcome.text);
      }
    }
  }

  /** A turn that called the generator and got a text back. */
  predicate Succeeded(t: Turn)
  {
    t.Answered? && t.outcome.Generated?
  }

  /** The number of turns of a run whose generation succeeded. */
  function Successes(ts: seq<Turn>): nat
  {
    if ts == [] then 0
    else Successes(ts[..|ts| - 1]) + (if Succeeded(ts[|ts| - 1]) then 1 else 0)
  }

  /** Every entry of a run is the transcript and stripped text of one of its successful turns. */
  lemma {:induction false} EntryOrigin(ts: seq<Turn>, e: Entry)
    requires e in Entries(ts)
    ensures exists i | 0 <= i < |ts| :: Succeeded(ts[i]) && e == Entry(ts[i].user, Strip(ts[i].outcome.text))
    decreases |ts|
  {
    var init, t := ts[..|ts| - 1], ts[|ts| - 1];
    if e in Entries(init) {
      EntryOrigin(init, e);
      var i :| 0 <= i < |init| && Succeeded(init[i]) && e == Entry(init[i].user, Strip(init[i].outcome.text));
      assert ts[i] == init[i];
    } else {
      assert Succeeded(ts[|ts| - 1]);
    }
  }

  /** Every successful turn of a run leaves its entry in the history. */
  lemma {:induction false} SuccessRecorded(ts: seq<Turn>, i: int)
    requires 0 <= i < |ts| && Succeeded(ts[i])
    ensures Entry(ts[i].user, Strip(ts[i].outcome.text)) in Entries(ts)
    decreases |ts|
  {
    var init := ts[..|ts| - 1];
    if i < |init| {
      assert init[i] == ts[i];
      SuccessRecorded(init, i);
    }
  }

  /** The history grows by exactly one entry per successful generation and by nothing
      else: every entry is the transcript and stripped text of a successful turn, every
      successful turn has its entry, and the counts agree. */
  lemma {:induction false} EntriesFromSuccesses(ts: seq<Turn>)
    ensures |Entries(ts)| == Successes(ts)
    ensures forall e | e in Entries(ts) ::
      exists i | 0 <= i < |ts| :: Succeeded(ts[i]) && e == Entry(ts[i].user, Strip(ts[i].outcome.text))
    ensures forall i | 0 <= i < |ts| && Succeeded(ts[i]) ::
      Entry(ts[i].user, Strip(ts[i].outcome.text)) in Entries(ts)
    decreases |ts|
  {
    if ts != [] {
      EntriesFromSuccesses(ts[..|ts| - 1]);
    }
    forall e | e in Entries(ts) {
      EntryOrigin(ts, e);
    }
    forall i | 0 <= i < |ts| && Succeeded(ts[i]) {
      SuccessRecorded(ts, i);
    }
  }

  /** Only generated answers reach the history: every entry of a run comes from a
      capture whose transcript holds no command keyword and no "종료" and whose
      generator call returned a text, and pairs that transcript with the stripped text.
      Command turns, the farewell, failed generations and failed captures append nothing. */
  lemma EntriesAreAnswers(edition: Edition, xs: seq<TurnInput>)
    requires AllAdmissible(xs)
    ensures forall e | e in Entries(Classified(edition, xs)) :: Question(edition, e.user) && e.ai == Strip(e.ai)
    ensures forall e | e in Entries(Classified(edition, xs)) ::
      exists i | 0 <= i < |xs| ::
        xs[i].heard.Heard? && xs[i].reply.Generated?
        && e == Entry(Transcript(xs[i].heard.alternatives), Strip(xs[i].reply.text))
  {
    var ts := Classified(edition, xs);
    forall i | 0 <= i < |xs| {
      ClassifyCases(edition, xs[i]);
    }
    EntriesOfQuestions(edition, ts);
    EntriesFromSuccesses(ts);
    forall e | e in Entries(ts)
      ensures exists i | 0 <= i < |xs| ::
        xs[i].heard.Heard? && xs[i].reply.Generated?
        && e == Entry(Transcript(xs[i].heard.alternatives), Strip(xs[i].reply.text))
    {
      var i :| 0 <= i < |ts| && Succeeded(ts[i]) && e == Entry(ts[i].user, Strip(ts[i].outcome.text));
      ClassifyCases(edition, xs[i]);
    }
  }

  /** The number of error lines in a log. */
  function ErrorCount(logs: seq<Log>): nat
  {
    if logs == [] then 0
    else ErrorCount(logs[..|logs| - 1]) + (if logs[|logs| - 1].Error? then 1 else 0)
  }

  /** The number of turns of a run that called the generator and got a failure. */
  function Failures(ts: seq<Turn>): nat
  {
    if ts == [] then 0
    else
      var t := ts[|ts| - 1];
      Failures(ts[..|ts| - 1]) + (if t.Answered? && t.outcome.GenerationFailed? then 1 else 0)
  }

  lemma {:induction false} ErrorCountAppend(a: seq<Log>, b: seq<Log>)
    ensures ErrorCount(a + b) == ErrorCount(a) + ErrorCount(b)
    decreases |b|
  {
    if b == [] {
      assert a + b == a;
    } else {
      assert (a + b)[..|a + b| - 1] == a + b[..|b| - 1];
      ErrorCountAppend(a, b[..|b| - 1]);
    }
  }

  /** One turn writes an error line exactly when its generation failed. */
  lemma TurnErrors(t: Turn)
    ensures ErrorCount(TurnLogs(t)) == if t.Answered? && t.outcome.GenerationFailed? then 1 else 0
  {
    var l := TurnLogs(t);
    if |l| == 1 {
      assert l[..0] == [];
    } else if |l| == 2 {
      assert l[..1][..0] == [];
      assert ErrorCount(l[..1]) == 0;
    }
  }

  /** app.log holds exactly one error line per failed generation, and no other. */
  lemma {:induction false} OneErrorPerFailure(ts: seq<Turn>)
    ensures ErrorCount(Logs(ts)) == Failures(ts)
    decreases |ts|
  {
    if ts != [] {
      var init, t := ts[..|ts| - 1], ts[|ts| - 1];
      OneErrorPerFailure(init);
      ErrorCountAppend(Logs(init), TurnLogs(t));
      TurnErrors(t);
    }
  }

  /** No truncation: every prompt of a run begins with the whole history the run started
      from, whatever turns came before it. */
  lemma {:induction false} PromptsKeepHistory(h: seq<Entry>, ts: seq<Turn>)
    ensures forall i | 0 <= i < |Prompts(h, ts)| :: RenderHistory(h) <= Prompts(h, ts)[i]
    decreases |ts|
  {
    if ts != [] {
      var init, t := ts[..|ts| - 1], ts[|ts| - 1];
      PromptsKeepHistory(h, init);
      var before, now := Prompts(h, init), TurnPrompts(h + Entries(init), t);
      assert Prompts(h, ts) == before + now;
      if t.Answered? {
        PromptKeepsHistory(h, Entries(init), t.user);
      }
      forall i | 0 <= i < |before + now|
        ensures RenderHistory(h) <= (before + now)[i]
      {
        if i < |before| {
          assert (before + now)[i] == before[i];
        } else {
          assert (before + now)[i] == now[i - |before|];
        }
      }
    }
  }
}

=== FILE: voice_beta.dfy ===
/** main_beta.py, the GUI edition. Its globals (`conversation_history`, the
    `speaking_event` flag, the SQLite table, the files and the conversation
    window) become the fields of one assistant object; `stt_and_ai`'s loop runs
    over a finite sequence of passes. */
module VoiceBeta {
  import opened Wrappers
  import opened Text
  import opened Commands
  import opened Prompt
  import opened Turns
  import opened GuiEvents

  /** Regrouping the events of a branch; stated as a lemma so that the branch with the
      most state to track does not have to carry the sequence equality in its context. */
  lemma SeqAssoc(a: seq<Event>, b: seq<Event>, c: seq<Event>)
    ensures a + b + c == a + (b + c)
  {
  }

  class BetaAssistant {
    /** `conversation_history` */
    var history: seq<Entry>
    /** The rows this run inserts into the `conversations` table, as (user_input, ai_response). */
    ghost var rows: seq<Entry>
    /** The blocks this run appends to conversation_history.txt. */
    ghost var transcriptFile: seq<string>
    /** The lines this run appends to app.log. */
    ghost var logs: seq<Log>
    /** The prompts handed to the generator. */
    ghost var prompts: seq<string>
    /** The texts handed to the speech engine. */
    ghost var spoken: seq<string>
    /** `speaking_event.is_set()` */
    var speaking: bool
    /** What the window showed, the captures and the flag changes, in order. */
    ghost var events: seq<Event>

    /** The table and the transcript file mirror the list, entry for entry. */
    ghost predicate Mirrors()
      reads this
    {
      rows == history
      && |transcriptFile| == |history|
      && forall i | 0 <= i < |history| :: transcriptFile[i] == TranscriptBlock(history[i])
    }

    /** The list and the sinks, as one value. */
    ghost function Observed(): Trace
      reads this
    {
      Trace(history, logs, prompts, spoken)
    }

    ghost function State(): GuiState
      reads this
    {
      GuiState(Observed(), events, speaking)
    }

    ghost predicate Valid()
      reads this
    {
      Mirrors() && Consistent(State())
    }

    constructor ()
      ensures Valid() && !speaking
      ensures history == [] && rows == [] && transcriptFile == [] && events == []
      ensures logs == [] && prompts == [] && spoken == []
    {
      history, rows, transcriptFile := [], [], [];
      logs, prompts, spoken := [], [], [];
      speaking, events := false, [];
    }

    /** `update_conversation_history`: one entry in the list, one row in the table and
        one block in the file; nothing earlier changes. */
    method UpdateConversationHistory(userInput: string, aiResponse: string)
      requires Mirrors()
      modifies this
      ensures Mirrors()
      ensures history == old(history) + [Entry(userInput, aiResponse)]
      ensures transcriptFile == old(transcriptFile) + [TranscriptBlock(Entry(userInput, aiResponse))]
      ensures logs == old(logs) && prompts == old(prompts) && spoken == old(spoken)
      ensures speaking == old(speaking) && events == old(events)
    {
      history := history + [Entry(userInput, aiResponse)];
      rows := rows + [Entry(userInput, aiResponse)];
      transcriptFile := transcriptFile + [TranscriptBlock(Entry(userInput, aiResponse))];
    }

    /** `log_interaction`: two info lines. */
    method LogInteraction(userInput: string, aiResponse: string)
      modifies this
      ensures logs == old(logs) + Interaction(userInput, aiResponse)
      ensures history == old(history) && rows == old(rows) && transcriptFile == old(transcriptFile)
      ensures prompts == old(prompts) && spoken == old(spoken)
      ensures speaking == old(speaking) && events == old(events)
    {
      logs := logs + [Info("User: " + userInput), Info("AI: " + aiResponse)];
    }

    /** `display_message`: one line in the conversation window. */
    method DisplayMessage(message: string)
      modifies this
      ensures events == old(events) + [Show(message)]
      ensures history == old(history) && rows == old(rows) && transcriptFile == old(transcriptFile)
      ensures logs == old(logs) && prompts == old(prompts) && spoken == old(spoken)
      ensures speaking == old(speaking)
    {
      events := events + [Show(message)];
    }

    /** `my_tts`: the flag goes up, the text is played, and the flag comes down again
        only when the playback returns normally. */
    method MyTts(text: string, playback: Playback)
      modifies this
      ensures events == old(events) + SpeechEvents(text, playback)
      ensures spoken == old(spoken) + [text]
      ensures speaking == (playback == Raised)
      ensures history == old(history) && rows == old(rows) && transcriptFile == old(transcriptFile)
      ensures logs == old(logs) && prompts == old(prompts)
    {
      speaking := true;
      events := events + [SpeakingOn];
      spoken := spoken + [text];
      events := events + [Play(text)];
      if playback == Finished {
        speaking := false;
        events := events + [SpeakingOff];
      }
    }

    /** `display_and_tts`: "AI: text" in the window, then the text spoken. */
    method DisplayAndTts(text: string, playback: Playback)
      modifies this
      ensures events == old(events) + ShowAndSpeak(text, playback)
      ensures spoken == old(spoken) + [text]
      ensures speaking == (playback == Raised)
      ensures history == old(history) && rows == old(rows) && transcriptFile == old(transcriptFile)
      ensures logs == old(logs) && prompts == old(prompts)
    {
      ghost var e0 := events;
      DisplayMessage("AI: " + text);
      MyTts(text, playback);
      assert e0 + [Show("AI: " + text)] + SpeechEvents(text, playback)
        == e0 + ([Show("AI: " + text)] + SpeechEvents(text, playback));
    }

    /** `concise_prompt` as `generate_ai_response` builds it from the current history. */
    function ConcisePrompt(userText: string): (r: string)
      reads this
      ensures RenderHistory(history) <= r
    {
      RenderPrompt(history, userText)
    }

    /** `generate_ai_response(prompt)`, with the generator's outcome as a parameter:
        on success the stripped text is recorded (list, table, file), logged and
        returned; on failure one error line is logged and the fallback returned. */
    method GenerateAiResponse(prompt: string, outcome: Generation) returns (reply: string)
      requires Mirrors()
      modifies this
      ensures Mirrors()
      ensures reply == Answer(outcome)
      ensures prompts == old(prompts) + [RenderPrompt(old(history), prompt)]
      ensures history == old(history) + Recorded(prompt, outcome)
      ensures logs == old(logs) + GenerationLogs(prompt, outcome)
      ensures spoken == old(spoken) && speaking == old(speaking) && events == old(events)
    {
      prompts := prompts + [ConcisePrompt(prompt)];
      match outcome
      case Generated(text) =>
        var aiText := Strip(text);
        assert Recorded(prompt, outcome) == [Entry(prompt, aiText)];
        UpdateConversationHistory(prompt, aiText);
        LogInteraction(prompt, aiText);
        reply := aiText;
      case GenerationFailed(detail) =>
        assert Recorded(prompt, outcome) == [];
        logs := logs + [Error(ErrorPrefix + detail)];
        reply := Fallback;
    }

    /** The command branch of `stt_and_ai`: the transcript is echoed, the reply is
        shown and spoken, and the exchange is logged. */
    method ReplyToCommand(transcript: string, reply: string, playback: Playback)
      requires Mirrors()
      modifies this
      ensures Mirrors()
      ensures Observed() == AfterTurn(old(Observed()), Replied(transcript, reply))
      ensures events == old(events) + Reaction(Replied(transcript, reply), playback)
      ensures speaking == (playback == Raised)
    {
      ghost var e0 := events;
      DisplayMessage("User: " + transcript);
      DisplayAndTts(reply, playback);
      LogInteraction(transcript, reply);
      assert e0 + [Show("User: " + transcript)] + ShowAndSpeak(reply, playback)
        == e0 + ([Show("User: " + transcript)] + ShowAndSpeak(reply, playback));
    }

    /** The "종료" branch: the transcript is echoed and the farewell spoken. */
    method SayFarewell(transcript: string, playback: Playback)
      requires Mirrors()
      modifies this
      ensures Mirrors()
      ensures Observed() == AfterTurn(old(Observed()), Quitted(transcript))
      ensures events == old(events) + Reaction(Quitted(transcript), playback)
      ensures speaking == (playback == Raised)
    {
      ghost var e0 := events;
      DisplayMessage("User: " + transcript);
      MyTts(Farewell, playback);
      assert e0 + [Show("User: " + transcript)] + SpeechEvents(Farewell, playback)
        == e0 + ([Show("User: " + transcript)] + SpeechEvents(Farewell, playback));
    }

    /** The generator branch: the transcript is echoed, the generator asked, and its
        answer (or the fallback) shown and spoken. */
    method AskGenerator(transcript: string, outcome: Generation, playback: Playback)
      requires Mirrors()
      modifies this
      ensures Mirrors()
      ensures Observed() == AfterTurn(old(Observed()), Answered(transcript, outcome))
      ensures events == old(events) + Reaction(Answered(transcript, outcome), playback)
      ensures speaking == (playback == Raised)
    {
      ghost var e0 := events;
      DisplayMessage("User: " + transcript);
      var aiResponse := GenerateAiResponse(transcript, outcome);
      DisplayAndTts(aiResponse, playback);
      SeqAssoc(e0, [Show("User: " + transcript)], ShowAndSpeak(aiResponse, playback));
    }

    /** The handling of a truthy capture result: a command reply first, then the
        "종료" test, then the generator. The echo of the transcript, which the source
        queues before calling `handle_command`, is part of each branch; the router is
        a pure function, so the order is the same. */
    method Respond(x: TurnInput, playback: Playback) returns (quit: bool)
      requires Mirrors() && Admissible(x) && x.heard.Heard?
      modifies this
      ensures Mirrors()
      ensures quit == Classify(Gui, x).Quitted?
      ensures Observed() == AfterTurn(old(Observed()), Classify(Gui, x))
      ensures events == old(events) + Reaction(Classify(Gui, x), playback)
      ensures Speaks(Classify(Gui, x)) && speaking == (playback == Raised)
    {
      var transcript := Transcript(x.heard.alternatives);
      var commandResponse := HandleCommandBeta(transcript, x.now);
      if commandResponse.Some? && commandResponse.value != [] {
        assert Classify(Gui, x) == Replied(transcript, commandResponse.value);
        ReplyToCommand(transcript, commandResponse.value, playback);
        return false;
      }
      if Contains(transcript, QuitKeyword) {
        assert Classify(Gui, x) == Quitted(transcript);
        SayFarewell(transcript, playback);
        quit := true;
      } else {
        assert Classify(Gui, x) == Answered(transcript, x.reply);
        AskGenerator(transcript, x.reply, playback);
        quit := false;
      }
    }

    /** The turn of a pass that found the flag clear: listen, then react to the capture. */
    method TakeTurn(tick: Tick) returns (quit: bool)
      requires Mirrors() && Admissible(tick.input) && !speaking
      modifies this
      ensures Mirrors()
      ensures quit == Classify(Gui, tick.input).Quitted?
      ensures Observed() == AfterTurn(old(Observed()), Classify(Gui, tick.input))
      ensures events == old(events) + TurnEvents(Classify(Gui, tick.input), tick.playback)
      ensures speaking == (Speaks(Classify(Gui, tick.input)) && tick.playback == Raised)
    {
      ghost var e0 := events;
      quit := false;
      events := events + [Listen];
      var x := tick.input;
      if !x.heard.Heard? {
        assert Classify(Gui, x) == Unheard(x.heard);
      }
      assert e0 + [Listen] + Reaction(Classify(Gui, x), tick.playback)
        == e0 + ([Listen] + Reaction(Classify(Gui, x), tick.playback));
      match x.heard
      case Heard(_) =>
        quit := Respond(x, tick.playback);
      case NothingHeard =>
      case NotUnderstood =>
        DisplayMessage(NotUnderstoodNotice);
      case ServiceFailed(_) =>
        // The queued display reads `e`; in the likely order of the thread race the
        // `except` clause has already unbound it, and the display fails.
    }

    /** One pass of `stt_and_ai`'s `while True`: while the flag is set it only sleeps;
        otherwise it takes a turn. Either way the flag still tells the truth and no
        capture has happened while it was set. */
    method Iterate(tick: Tick) returns (quit: bool)
      requires Valid() && Admissible(tick.input)
      modifies this
      ensures Valid()
      ensures quit == Quits(old(State()).speaking, tick)
      ensures State() == TickState(old(State()), tick)
    {
      TickKeepsConsistent(State(), tick);
      if speaking {
        events := events + [Wait];
        quit := false;
      } else {
        quit := TakeTurn(tick);
      }
    }

    /** `stt_and_ai` over successive passes: it stops right after the pass that quits,
        or when the passes run out. */
    method Run(ticks: seq<Tick>) returns (taken: nat, quit: bool)
      requires Valid() && TicksAdmissible(ticks)
      modifies this
      ensures Valid()
      ensures taken <= |ticks|
      ensures !quit ==> taken == |ticks|
      ensures quit == Halted(old(State()), ticks[..taken])
      ensures 0 < taken ==> !Halted(old(State()), ticks[..taken - 1])
      ensures State() == RunState(old(State()), ticks[..taken])
    {
      taken, quit := 0, false;
      while taken < |ticks| && !quit
        invariant Valid()
        invariant taken <= |ticks|
        invariant quit == Halted(old(State()), ticks[..taken])
        invariant 0 < taken ==> !Halted(old(State()), ticks[..taken - 1])
        invariant State() == RunState(old(State()), ticks[..taken])
        decreases |ticks| - taken
      {
        quit := Iterate(ticks[taken]);
        RunStateSnoc(old(State()), ticks, taken);
        HaltedSnoc(old(State()), ticks, taken);
        taken := taken + 1;
      }
    }
  }
}

=== FILE: voice_main.dfy ===
/** main.py, the console edition. Its module-level state (`conversation_history`
    and the files it appends to) becomes the fields of one assistant object; its
    functions become the methods below; the `while True` loop of `main` runs over
    a finite sequence of capture outcomes. */
module VoiceMain {
  import opened Wrappers
  import opened Text
  import opened Commands
  import opened Prompt
  import opened Turns

  class Assistant {
    /** `conversation_history` */
    var history: seq<Entry>
    /** The blocks this run appends to conversation_history.txt. */
    ghost var transcriptFile: seq<string>
    /** The lines this run appends to app.log. */
    ghost var logs: seq<Log>
    /** The prompts handed to the generator. */
    ghost var prompts: seq<string>
    /** The texts handed to the speech engine. */
    ghost var spoken: seq<string>

    /** The transcript file mirrors the list: one block per entry, in order. */
    ghost predicate Valid()
      reads this
    {
      |transcriptFile| == |history|
      && forall i | 0 <= i < |history| :: transcriptFile[i] == TranscriptBlock(history[i])
    }

    /** The list and the sinks, as one value. */
    ghost function Observed(): Trace
      reads this
    {
      Trace(history, logs, prompts, spoken)
    }

    constructor ()
      ensures Valid()
      ensures history == [] && transcriptFile == [] && logs == [] && prompts == [] && spoken == []
    {
      history, transcriptFile, logs, prompts, spoken := [], [], [], [], [];
    }

    /** `update_conversation_history`: one entry at the tail of the list and one block
        at the end of the file; nothing earlier changes. */
    method UpdateConversationHistory(userInput: string, aiResponse: string)
      requires Valid()
      modifies this
      ensures Valid()
      ensures history == old(history) + [Entry(userInput, aiResponse)]
      ensures transcriptFile == old(transcriptFile) + [TranscriptBlock(Entry(userInput, aiResponse))]
      ensures logs == old(logs) && prompts == old(prompts) && spoken == old(spoken)
    {
      history := history + [Entry(userInput, aiResponse)];
      transcriptFile := transcriptFile + [TranscriptBlock(Entry(userInput, aiResponse))];
    }

    /** `log_interaction`: two info lines. */
    method LogInteraction(userInput: string, aiResponse: string)
      modifies this
      ensures logs == old(logs) + Interaction(userInput, aiResponse)
      ensures history == old(history) && transcriptFile == old(transcriptFile)
      ensures prompts == old(prompts) && spoken == old(spoken)
    {
      logs := logs + [Info("User: " + userInput), Info("AI: " + aiResponse)];
    }

    /** `my_tts`: one blocking playback (the rate change around it is not modelled). */
    method MyTts(text: string)
      modifies this
      ensures spoken == old(spoken) + [text]
      ensures history == old(history) && transcriptFile == old(transcriptFile)
      ensures logs == old(logs) && prompts == old(prompts)
    {
      spoken := spoken + [text];
    }

    /** `concise_prompt` as `generate_ai_response` builds it from the current history;
        being a function of the state, building it twice gives the same text. */
    function ConcisePrompt(userText: string): (r: string)
      reads this
      ensures RenderHistory(history) <= r
    {
      RenderPrompt(history, userText)
    }

    /** `generate_ai_response(prompt)`, with the generator's outcome as a parameter:
        on success the stripped text is recorded, logged and returned; on failure one
        error line is logged, the history is left alone and the fallback is returned. */
    method GenerateAiResponse(prompt: string, outcome: Generation) returns (reply: string)
      requires Valid()
      modifies this
      ensures Valid()
      ensures reply == Answer(outcome)
      ensures prompts == old(prompts) + [RenderPrompt(old(history), prompt)]
      ensures history == old(history) + Recorded(prompt, outcome)
      ensures logs == old(logs) + GenerationLogs(prompt, outcome)
      ensures spoken == old(spoken)
    {
      prompts := prompts + [ConcisePrompt(prompt)];
      match outcome
      case Generated(text) =>
        var aiText := Strip(text);
        UpdateConversationHistory(prompt, aiText);
        LogInteraction(prompt, aiText);
        reply := aiText;
      case GenerationFailed(detail) =>
        logs := logs + [Error(ErrorPrefix + detail)];
        reply := Fallback;
    }

    /** One iteration of the `while True` loop of `main`. A falsy capture result (the
        None `my_stt` returns on recognition errors) changes nothing; a command reply
        is spoken and logged but not recorded; "종료" speaks the farewell and quits;
        anything else goes to the generator and its answer is spoken. */
    method Step(x: TurnInput) returns (quit: bool)
      requires Valid() && Admissible(x)
      modifies this
      ensures Valid()
      ensures quit == Classify(Console, x).Quitted?
      ensures Observed() == AfterTurn(old(Observed()), Classify(Console, x))
    {
      quit := false;
      if x.heard.Heard? {
        var transcript := Transcript(x.heard.alternatives);
        var commandResponse := HandleCommand(transcript, x.now);
        if commandResponse.Some? && commandResponse.value != [] {
          MyTts(commandResponse.value);
          LogInteraction(transcript, commandResponse.value);
          return;
        }
        if Contains(transcript, QuitKeyword) {
          MyTts(Farewell);
          quit := true;
        } else {
          var aiResponse := GenerateAiResponse(transcript, x.reply);
          MyTts(aiResponse);
        }
      }
    }

    /** The loop of `main` over successive capture outcomes: it stops right after the
        first turn that quits, or when the outcomes run out. The history, the log, the
        prompts and the speech are those of the turns taken, in order. */
    method Run(inputs: seq<TurnInput>) returns (taken: nat, quit: bool)
      requires Valid() && AllAdmissible(inputs)
      modifies this
      ensures Valid()
      ensures taken <= |inputs|
      ensures !quit ==> taken == |inputs|
      ensures quit ==> 0 < taken && Classify(Console, inputs[taken - 1]).Quitted?
      ensures forall i | 0 <= i < taken :: Classify(Console, inputs[i]).Quitted? <==> quit && i == taken - 1
      ensures Observed() == After(old(Observed()), Classified(Console, inputs[..taken]))
    {
      taken, quit := 0, false;
      while taken < |inputs| && !quit
        invariant Valid()
        invariant taken <= |inputs|
        invariant quit ==> 0 < taken && Classify(Console, inputs[taken - 1]).Quitted?
        invariant forall i | 0 <= i < taken :: Classify(Console, inputs[i]).Quitted? <==> quit && i == taken - 1
        invariant Observed() == After(old(Observed()), Classified(Console, inputs[..taken]))
        decreases |inputs| - taken
      {
        quit := Step(inputs[taken]);
        ClassifiedSnoc(Console, inputs, taken);
        AfterSnoc(old(Observed()), Classified(Console, inputs[..taken]), Classify(Console, inputs[taken]));
        taken := taken + 1;
      }
    }
  }
}

=== FILE: wrappers.dfy ===
/** The optional value used wherever the Python code returns `None` or reads a key with a default. */
module Wrappers {
  datatype Option<+T> = None | Some(value: T) {
    /** `d.get(key, default)`: the value when present, the default otherwise. */
    function GetOr(default: T): T {
      match this
      case Some(v) => v
      case None => default
    }
  }
}
